=== FILE: README.md ===
# SimpleJavaAPIWrapper request pipeline, modelled in Dafny

This project models the request/response core of SimpleJavaAPIWrapper. That
core has two generations.

**The new API.** This is `WrappedApi`, `ApiRequest` and `ApiRequestBuilder`.
- An API definition supplies a default URL, default headers, a timeout and a
  rethrow policy.
- A request descriptor supplies an endpoint template and a method. It may also
  supply path parameters, queries, headers and body strategies.
- The endpoint is computed by substituting `{id}` placeholders with Java
  `String.replace` semantics and then appending `?name=value&…`.
- Two send pipelines turn a request into hook calls, one transport call and a
  materialised response:
  - `WrappedApi.send` routes failures through `onException` and then rethrows
    or returns null.
  - `ApiRequest.send` routes nothing.

**The legacy API.** This is `Action.execute`. It joins URL and endpoint with
its own rule and substitutes over the whole URL. It refuses a URL with a
leftover brace before any network call. It deserialises first and writes the
response code afterwards. It reports caught failures to an error callback.

The model uses immutable datatypes and pure functions:
- Java strings are `seq<char>`.
- Java `null` is `Option`.
- Exceptions are `Result`/`Outcome` values.
- Each send is a function that returns the trace of hook and transport events
  together with how the call ends.

The URI parser, the HTTP client, the reflective constructor and the
deserialisers are parameters (oracles). The proofs therefore hold for every
behaviour of those components.

Modules, one file each:
- `outcomes.dfy`: exceptions, `Option`, `Result`, and `Outcome` (returned, returned null, or thrown).
- `text.dfy`: `String.replace` (`ReplaceAll`) and its scanning laws.
- `values.dfy`: `PathParameter`, `RequestQuery`, `RequestHeader`, `RequestMethod` and the body strategies.
- `template.dfy`: sequential substitution, and a template theory of literals and slots that explains it.
- `api.dfy`, `response.dfy` and `request.dfy`: what `WrappedApi`, `ApiResponse` and `ApiRequest` report.
- `endpoint.dfy`: the endpoint computation, which the source writes twice with identical loops; the model states one copy as a function and the other as a method with loops, and proves them equal. It also holds a query-string parser, the inverse of the renderer.
- `headers.dfy`: header emission.
- `materialize.dfy`: instance creation and `handleResponse`.
- `send.dfy`: the two pipelines, `sendAsync` and the hook-protocol automaton.
- `builder.dfy`: `ApiRequestBuilder`, and the live view its `build()` returns.
- `action.dfy`: the legacy `Action.execute`, both as written and corrected.

### Behaviour worth knowing

- **Built requests are live views of their builder.** The request `build()`
  returns keeps a reference to the builder and reads its fields on every
  accessor call; nothing is copied. A setter called after `build()` changes
  what the earlier request reports. `Builder.BuiltBeforeSetterSeesIt` shows
  this on the two objects (`Builder.BuilderObject`, `Builder.BuiltRequest`).
- **No validation at build time.** A missing endpoint or method is noticed
  only when the request is sent. A missing method throws
  `NullPointerException` (`NullPointer` in `Send.Prepare`) once the URL is
  built, the URI is accepted and, in `WrappedApi.send`, the timeout is
  positive; an earlier failure of those checks wins. A missing endpoint
  throws `NullPointerException` only when there are path parameters; otherwise the
  text `null` becomes part of the URL (`https://h.io` + `null`, or
  `https://h.io` + `null?a=1` with queries).
- **A null default URL is printed as `null`.** When both the request URL and
  `getDefaultUrl()` are null, the request URL starts with the text `null`
  (`Send.BaseUrl`).
- **The timeout is checked only by `WrappedApi.send`.** A non-positive
  `getTimeoutDuration()` makes `HttpRequest.Builder.timeout` throw
  `IllegalArgumentException` after the URL is built and before the URI
  check; `ApiRequest.send` sets no timeout at all
  (`Send.NonPositiveTimeoutThrowsBeforeHooks`).
- **A null response is not a failure.** `handleResponse` may yield null: a
  custom deserialiser may return it, and Gson's `fromJson` does so for empty
  or `null` JSON text. `WrappedApi.send` then calls `onAfterHandledApiRequest`
  with null and returns null, even with rethrowing on; `onException` does not
  run (`Send.NullHandlingIsNotRouted`).
- **The first parameter wins.** With two path parameters of the same id, the
  first one in the list fills the placeholder, not the last.
  `PathTemplate.FirstParameterWins` states this.
- **No unresolved-placeholder error in the new pipeline.** A leftover `{…}` is
  sent to the transport verbatim (`Send.UnfilledPlaceholderIsSent`). Only the
  legacy `Action.execute` checks for braces.
- **Default headers are never sent.** Both send paths call
  `ApiRequest.applyHeadersToHttpRequestBuilder`, which emits only the request's
  headers. The `WrappedApi` version, which adds the default headers, is called
  by neither. It is modelled separately (`Headers.HeadersWithDefaults`).
- **Shared functions for duplicated code.** `WrappedApi.computeEndpoint`,
  `createInstanceOfResponseClass` and `handleResponse` have the same bodies as
  their `ApiRequest` counterparts. Each pair is modelled by one function.
- **Legacy response code defaults to 0.** In the legacy `APIResponse`,
  `responseCode` is a plain `int`, so a fresh instance reports 0, not -1.

## Model

| member | source | states |
|---|---|---|
| Text.ReplaceAll | src/main/java/dev/mayuna/simpleapi/WrappedApi.java:46 | `String.replace`: with a non-empty target, a replacement of the target's length keeps the length and a shorter one never lengthens the text; its scanning order is stated by the lemmas below |
| Text.ReplaceAllSkips | src/main/java/dev/mayuna/simpleapi/WrappedApi.java:46 | `String.replace` scans left to right: a prefix in which no occurrence of the target starts is copied unchanged and scanning continues after it |
| Text.ReplaceAllFirst | src/main/java/dev/mayuna/simpleapi/WrappedApi.java:46 | the leftmost occurrence is replaced and scanning resumes after it, so matches never overlap and inserted text is never rescanned |
| Text.ReplaceAllAbsent | src/main/java/dev/mayuna/simpleapi/WrappedApi.java:46 | a text in which the target does not occur is returned unchanged |
| Text.ReplaceAllShort | src/main/java/dev/mayuna/simpleapi/WrappedApi.java:46 | a text shorter than a non-empty target is returned unchanged |
| Text.ReplaceAllSelf | src/main/java/dev/mayuna/simpleapi/WrappedApi.java:46 | replacing a target by itself gives back the original text |
| Text.ReplaceAllKeepsBraceFree | src/main/java/dev/mayuna/simpleapi/Action.java:58-66 | replacing inside a brace-free text with a brace-free replacement cannot create a brace |
| Values.Token | src/main/java/dev/mayuna/simpleapi/PathParameter.java:16-19 | the placeholder is two characters longer than the id, starts with `{`, ends with `}`, and holds exactly the id in between |
| Values.TokenInjective | src/main/java/dev/mayuna/simpleapi/PathParameter.java:16-19 | different ids never share a placeholder |
| Values.PathParameter.ToString | src/main/java/dev/mayuna/simpleapi/PathParameter.java:16-19 | `toString()` is `{parameter}`: braces at both ends, the parameter in between, length parameter plus two |
| Values.PathParameterOf | src/main/java/dev/mayuna/simpleapi/PathParameter.java:8-14 | the two accessors return the first and second constructor argument |
| Values.QueryOf | src/main/java/dev/mayuna/simpleapi/RequestQuery.java:22-24 | `of(name, value)` reports the name and the value as given |
| Values.HeaderOf | src/main/java/dev/mayuna/simpleapi/RequestHeader.java:22-24 | `of(k, v)` reports key `k` and value `v` |
| Values.ContentType | src/main/java/dev/mayuna/simpleapi/RequestHeader.java:31-33 | `ofContentType(v)` reports key `Content-Type` and value `v` |
| Values.MethodOf | src/main/java/dev/mayuna/simpleapi/RequestMethod.java:23-25 | `of(n)` reports name `n` for every name, custom verbs included |
| Values.PredefinedMethods | src/main/java/dev/mayuna/simpleapi/RequestMethod.java:7-10 | the four constants carry `GET`, `POST`, `PUT`, `DELETE`, all distinct |
| PathTemplate.Substitute | src/main/java/dev/mayuna/simpleapi/WrappedApi.java:42-48 | the parameter loop (also Action.java:58-62): a text with no braces has no placeholder and is returned unchanged by any parameter list |
| PathTemplate.BraceFreeHasNoToken | src/main/java/dev/mayuna/simpleapi/WrappedApi.java:46 | `replace` of a placeholder leaves a brace-free text unchanged |
| PathTemplate.SubstituteAppend | src/main/java/dev/mayuna/simpleapi/WrappedApi.java:42-48 | substitution is a left fold: substituting a list `ps + qs` is substituting `ps` and then `qs` over the result, so later parameters see earlier output |
| PathTemplate.SubstituteAbsent | src/main/java/dev/mayuna/simpleapi/WrappedApi.java:42-48 | parameters whose placeholders do not occur leave the endpoint unchanged |
| PathTemplate.SubstituteRendered | src/main/java/dev/mayuna/simpleapi/WrappedApi.java:42-48 | for a template of brace-free literals and `{id}` slots and brace-free parameters, sequential `replace` equals filling every slot with the replacement of the FIRST parameter carrying its id |
| PathTemplate.RenderBraceFree | src/main/java/dev/mayuna/simpleapi/Action.java:64 | a rendered template contains a brace exactly when it still has a slot |
| PathTemplate.SubstitutedBraceFreeIffCovered | src/main/java/dev/mayuna/simpleapi/Action.java:58-66 | after substitution no brace is left if and only if every slot of the template has a parameter |
| PathTemplate.FirstParameterWins | src/main/java/dev/mayuna/simpleapi/WrappedApi.java:44-47 | of two parameters with the same id, the first fills the placeholder and the second finds nothing left to replace |
| PathTemplate.ResolveCompose | src/main/java/dev/mayuna/simpleapi/WrappedApi.java:44-47 | resolving slots with one parameter and then a list equals resolving with the extended list |
| PathTemplate.ResolveKeepsWellFormed | src/main/java/dev/mayuna/simpleapi/WrappedApi.java:44-47 | brace-free parameters keep a well-formed template well-formed |
| Api.WithDefaultUrl | src/main/java/dev/mayuna/simpleapi/WrappedApi.java:120-122 | an API overriding only the (non-null) default URL has no default headers, a 10-second timeout and rethrows failures |
| Response.FreshApiResponse | src/main/java/dev/mayuna/simpleapi/ApiResponse.java:12-13 | a fresh response has status -1 and no API |
| Response.ApiResponse.SetHttpStatusCode | src/main/java/dev/mayuna/simpleapi/ApiResponse.java:12 | the status reads back as set and the API field is unchanged |
| Response.ApiResponse.SetWrappedApi | src/main/java/dev/mayuna/simpleapi/ApiResponse.java:13 | the API reads back as set and the status is unchanged |
| Response.SettersIndependent | src/main/java/dev/mayuna/simpleapi/ApiResponse.java:12-13 | the two setters commute, a second status write overrides the first, and writing the current status is a no-op |
| Response.Fresh | src/main/java/dev/mayuna/simpleapi/ApiResponse.java:15-16 | the no-argument constructor yields an instance of the class with the fresh envelope |
| Request.WithDefaults | src/main/java/dev/mayuna/simpleapi/ApiRequest.java:77-115 | a request keeping the interface defaults has null parameters, queries and headers, no body, and reads the body as a string |
| Endpoint.ComputeEndpoint | src/main/java/dev/mayuna/simpleapi/WrappedApi.java:39-67 | the substituted template is a prefix of the result; without queries it is the result; without parameters and queries the endpoint is unchanged; with queries a `?` follows the path |
| Endpoint.ComputedEndpoint | src/main/java/dev/mayuna/simpleapi/WrappedApi.java:39-67 | a null endpoint fails with a NullPointerException exactly when there are parameters, is null exactly when there are neither parameters nor queries, and a non-null endpoint's substitution prefixes the result |
| Endpoint.GetComputedEndpoint | src/main/java/dev/mayuna/simpleapi/ApiRequest.java:122-150 | the loop-based copy returns exactly what the `WrappedApi` version computes, for every request |
| Endpoint.SubstituteInOrder | src/main/java/dev/mayuna/simpleapi/ApiRequest.java:125-131 | the parameter loop computes the left fold of `replace` over the parameters |
| Endpoint.AppendQueries | src/main/java/dev/mayuna/simpleapi/ApiRequest.java:133-147 | the query loop appends the rendered query string to its starting text, which it never changes |
| Endpoint.Field | src/main/java/dev/mayuna/simpleapi/WrappedApi.java:62 | a query renders with `=` right after its name and is one character longer than name and value together; that the name and value are recovered intact is `Endpoint.QueryRoundTrip` |
| Endpoint.QuerySymbol | src/main/java/dev/mayuna/simpleapi/WrappedApi.java:56-60 | the symbol is one character: `?` exactly for the first query, `&` exactly for every later one |
| Endpoint.RenderQueries | src/main/java/dev/mayuna/simpleapi/WrappedApi.java:52-63 | the query loop appends nothing exactly when there are no queries, and otherwise text starting with `?` |
| Endpoint.RenderQueriesStartsWithQuestionMark | src/main/java/dev/mayuna/simpleapi/WrappedApi.java:52-63 | a non-empty query list renders starting with `?` |
| Endpoint.QueriesAreJoinedFields | src/main/java/dev/mayuna/simpleapi/WrappedApi.java:52-63 | the query loop renders `?` followed by the `name=value` fields joined with `&`, in list order |
| Endpoint.QueryExample | src/main/java/dev/mayuna/simpleapi/WrappedApi.java:50-64 | `/x` with queries a=1, b=2 computes to `/x?a=1&b=2` |
| Endpoint.QueryRoundTrip | src/main/java/dev/mayuna/simpleapi/WrappedApi.java:50-64 | splitting the rendered query string at `&` and `=` gives back the queries, in order, whenever names hold no `=` or `&` and values no `&` |
| Endpoint.DefaultsComputeToEndpoint | src/main/java/dev/mayuna/simpleapi/ApiRequest.java:77-97 | with the interface defaults the computed endpoint is the endpoint itself |
| Headers.Listed | src/main/java/dev/mayuna/simpleapi/ApiRequest.java:159 | a null header array is treated as no headers; a non-null one as its elements |
| Headers.ApplyRequestHeaders | src/main/java/dev/mayuna/simpleapi/ApiRequest.java:158-164 | the builder's previous headers stay in front and exactly the given headers follow in order; a null array adds none |
| Headers.HeadersWithDefaults | src/main/java/dev/mayuna/simpleapi/WrappedApi.java:79-93 | the request headers in order, then the API defaults in order, each null array contributing nothing |
| Headers.DuplicateKeysKept | src/main/java/dev/mayuna/simpleapi/WrappedApi.java:79-93 | a request header and a default header with the same key are both emitted, the request's first |
| Materialize.CreateInstance | src/main/java/dev/mayuna/simpleapi/ApiRequest.java:194-200 | an array class fails before reflection is tried, a class without a usable constructor fails, and otherwise the instance is fresh |
| Materialize.Bind | src/main/java/dev/mayuna/simpleapi/ApiRequest.java:218-223 | an `ApiResponse` gets the status and the API; any other object is untouched |
| Materialize.HandleResponse | src/main/java/dev/mayuna/simpleapi/ApiRequest.java:215-230 | instance creation failures propagate; a deserialisable class yields exactly what its deserialiser returns (an object, null, or an exception) for the already-bound instance; any other constructible class yields exactly the fresh instance with status and API bound, never null |
| Materialize.HandleIsCreateThenBind | src/main/java/dev/mayuna/simpleapi/ApiRequest.java:215-230 | with a deserialiser that returns what it is given, handling is instance creation followed by binding, for every class |
| Materialize.DeserializerSeesBoundEnvelope | src/main/java/dev/mayuna/simpleapi/WrappedApi.java:172-187 | the deserialiser is called on an instance whose status and API are already set |
| Materialize.GsonDeserialize | src/main/java/dev/mayuna/simpleapi/GsonApiResponse.java:22-30 | a non-null, non-string body fails with IllegalArgumentException; a null body fails with NullPointerException when the message asks for its class; a string body is decoded into the instance's own class, which may give null |
| Materialize.GsonNullBody | src/main/java/dev/mayuna/simpleapi/GsonApiResponse.java:23-26 | handling a null body with the Gson deserialiser fails with NullPointerException |
| Materialize.GsonResultIgnoresBoundEnvelope | src/main/java/dev/mayuna/simpleapi/GsonApiResponse.java:29 | with Gson the bound instance is discarded: the response is exactly what `fromJson` decodes from the body into the response class |
| Send.BaseUrl | src/main/java/dev/mayuna/simpleapi/ApiRequest.java:273-277 | the request's URL when non-null, the API default otherwise, and the text `null` when both are null |
| Send.RequestUrl | src/main/java/dev/mayuna/simpleapi/ApiRequest.java:279 | the base URL is a prefix and the rest is the computed endpoint (`null` as text); a failing endpoint computation fails the same way |
| Send.Prepare | src/main/java/dev/mayuna/simpleapi/WrappedApi.java:206-225 | in source order: a failing endpoint computation, then a non-positive timeout (IllegalArgumentException), then an unparsable URI, then a null method; a prepared request carries the request URL, the method name, only the request's headers, its body strategies and the (positive or absent) timeout |
| Send.Routed | src/main/java/dev/mayuna/simpleapi/WrappedApi.java:236-240 | a routed failure is rethrown when `rethrowExceptions()` holds and becomes null otherwise |
| Send.Deliver | src/main/java/dev/mayuna/simpleapi/WrappedApi.java:227-261 | after preparation: a transport failure goes to `onException` right after the transport call, with no `onAfterApiRequest`, and is rethrown or turned into null; a handling failure goes to `onException` after `onAfterApiRequest`, the same way; a handled response, object or null, is passed to `onAfterHandledApiRequest` and returned; the run ends in `onAfterHandledApiRequest` exactly when no exception was routed, and with rethrowing on null is returned only after that hook saw null |
| Send.WrappedSend | src/main/java/dev/mayuna/simpleapi/WrappedApi.java:205-262 | a preparation failure produces no event; otherwise `onApiRequest` and the transport call come first; the exception passed to `onException` is exactly the one the transport or `handleResponse` threw, and it is rethrown or replaced by null; `onAfterApiRequest` runs exactly when the transport call succeeded; the returned value, object or null, is exactly what `handleResponse` produced and what `onAfterHandledApiRequest` saw; with rethrowing on, null is returned only when `handleResponse` produced it |
| Send.ApiSend | src/main/java/dev/mayuna/simpleapi/ApiRequest.java:272-298 | the trace is empty or exactly `onApiRequest` and the transport call, with no timeout; no `onException` ever; transport failures propagate unchanged; after a successful transport call the result is exactly what `handleResponse` returns or throws; null exactly when `handleResponse` yields null |
| Send.SendAsync | src/main/java/dev/mayuna/simpleapi/ApiRequest.java:246-258 | the future completes normally exactly when `send()` returns (with its value, possibly null) and exceptionally exactly when it throws (with its exception) |
| Send.DeliverFollowsProtocol | src/main/java/dev/mayuna/simpleapi/WrappedApi.java:227-261 | once the hooks start, the run ends in the automaton's Handled phase exactly when the transport call and `handleResponse` both succeed (whether they produce an object or null), and in Failed otherwise |
| Send.WrappedSendFollowsProtocol | src/main/java/dev/mayuna/simpleapi/WrappedApi.java:227-261 | every trace of `WrappedApi.send` is accepted by the hook automaton; it ends in Handled exactly when the request was prepared and the transport call and `handleResponse` succeeded, in Failed exactly when one exception was routed to `onException`, and every returned object ends in Handled |
| Send.ApiSendStopsAfterTransport | src/main/java/dev/mayuna/simpleapi/ApiRequest.java:293-297 | a trace of `ApiRequest.send` stops at the transport call: no after-hook runs |
| Send.PipelinesAgreeWhenRethrowing | src/main/java/dev/mayuna/simpleapi/WrappedApi.java:205-262 | with rethrowing on, a positive timeout and a timeout-insensitive transport the two pipelines end identically |
| Send.NullHandlingIsNotRouted | src/main/java/dev/mayuna/simpleapi/WrappedApi.java:245-261 | a `handleResponse` that yields null is no failure: `onException` does not run, `onAfterHandledApiRequest` sees null and the call returns null, whatever the rethrow policy |
| Send.NonPositiveTimeoutThrowsBeforeHooks | src/main/java/dev/mayuna/simpleapi/WrappedApi.java:216 | a non-positive timeout makes `WrappedApi.send` throw before any hook once the URL is built, while `ApiRequest.send` is unaffected |
| Send.SuppressedTransportFailure | src/main/java/dev/mayuna/simpleapi/WrappedApi.java:231-241 | with rethrowing off a transport failure reaches `onException` once, skips `onAfterApiRequest`, and the call returns null |
| Send.UnfilledPlaceholderIsSent | src/main/java/dev/mayuna/simpleapi/ApiRequest.java:279-295 | the new pipeline sends an endpoint with an unfilled `{id}` verbatim |
| Builder.OfResponse | src/main/java/dev/mayuna/simpleapi/ApiRequestBuilder.java:20-48 | a new builder holds the API and class, nothing else set, empty lists |
| Builder.WithUrl | src/main/java/dev/mayuna/simpleapi/ApiRequestBuilder.java:57-64 | appending one `/` to the stored URL gives back a URL that ended in `/`; any other URL is stored as given; nothing else changes |
| Builder.WithUrlStripsOneSlash | src/main/java/dev/mayuna/simpleapi/ApiRequestBuilder.java:57-64 | `a//` becomes `a/`, only a second call gives `a`, and `/` becomes empty |
| Builder.WithEndpoint | src/main/java/dev/mayuna/simpleapi/ApiRequestBuilder.java:73-80 | the stored endpoint starts with `/`: the argument when it already does, `/` plus the argument otherwise; nothing else changes |
| Builder.WithEndpointIdempotent | src/main/java/dev/mayuna/simpleapi/ApiRequestBuilder.java:73-80 | setting the normalised endpoint again changes nothing |
| Builder.OneSeparator | src/main/java/dev/mayuna/simpleapi/ApiRequestBuilder.java:57-80 | whether the caller writes the slash on the URL, on the endpoint, on both or on neither, URL plus endpoint has exactly one slash between them |
| Builder.WithRequestMethod | src/main/java/dev/mayuna/simpleapi/ApiRequestBuilder.java:90-93 | only the method changes |
| Builder.WithRequestMethodName | src/main/java/dev/mayuna/simpleapi/ApiRequestBuilder.java:95-98 | the stored method is named by the argument and is what setting it as a method gives |
| Builder.WithPathParameter | src/main/java/dev/mayuna/simpleapi/ApiRequestBuilder.java:107-110 | the parameter goes to the end of its list; nothing else changes |
| Builder.WithRequestQuery | src/main/java/dev/mayuna/simpleapi/ApiRequestBuilder.java:139-142 | the query goes to the end of its list; nothing else changes |
| Builder.WithRequestHeader | src/main/java/dev/mayuna/simpleapi/ApiRequestBuilder.java:171-174 | the header goes to the end of its list; nothing else changes |
| Builder.AddPathParameters | src/main/java/dev/mayuna/simpleapi/ApiRequestBuilder.java:123-127 | calling the singular setter once per element appends the whole sequence in order |
| Builder.AddRequestQueries | src/main/java/dev/mayuna/simpleapi/ApiRequestBuilder.java:155-159 | calling the singular setter once per element appends the whole sequence in order |
| Builder.AddRequestHeaders | src/main/java/dev/mayuna/simpleapi/ApiRequestBuilder.java:187-191 | calling the singular setter once per element appends the whole sequence in order |
| Builder.WithPathParameters | src/main/java/dev/mayuna/simpleapi/ApiRequestBuilder.java:120-130 | `first` and then every element of `rest` are appended in order; a null `rest` appends only `first` |
| Builder.WithRequestQueries | src/main/java/dev/mayuna/simpleapi/ApiRequestBuilder.java:152-162 | `first` and then every element of `rest` are appended in order; a null `rest` appends only `first` |
| Builder.WithRequestHeaders | src/main/java/dev/mayuna/simpleapi/ApiRequestBuilder.java:184-194 | `first` and then every element of `rest` are appended in order; a null `rest` appends only `first` |
| Builder.PluralIsRepeatedSingular | src/main/java/dev/mayuna/simpleapi/ApiRequestBuilder.java:120-130 | the plural setter equals repeated singular calls, and with null `rest` a single call |
| Builder.WithBodyPublisher | src/main/java/dev/mayuna/simpleapi/ApiRequestBuilder.java:201-204 | only the body publisher changes |
| Builder.WithBodyHandler | src/main/java/dev/mayuna/simpleapi/ApiRequestBuilder.java:211-214 | only the body handler changes |
| Builder.ArrayOf | src/main/java/dev/mayuna/simpleapi/ApiRequestBuilder.java:248-254 | the accessor returns null exactly for an empty list, and reading null as empty gives the list back |
| Builder.Build | src/main/java/dev/mayuna/simpleapi/ApiRequestBuilder.java:220-283 | the built request reports the builder's fields, null for an empty list and the elements in insertion order otherwise, and no body and string reading when the strategies are unset |
| Builder.BuildRoundTrip | src/main/java/dev/mayuna/simpleapi/ApiRequestBuilder.java:248-282 | a builder whose body strategies are set is recovered exactly from what its built request reports |
| Builder.BuildThenFromRequest | src/main/java/dev/mayuna/simpleapi/ApiRequestBuilder.java:248-282 | a request that never reports an empty array is rebuilt exactly |
| Builder.BuiltRequestIsLive | src/main/java/dev/mayuna/simpleapi/ApiRequestBuilder.java:248-263 | what the built request's accessors report after each list setter (the element at the end, never null) and after the endpoint setter (the method unchanged) |
| Builder.BuilderObject.AddPathParameter | src/main/java/dev/mayuna/simpleapi/ApiRequestBuilder.java:107-110 | two-state: the builder object's state after the call is `WithPathParameter` of its state before, and the call returns the same object |
| Builder.BuilderObject.SetEndpoint | src/main/java/dev/mayuna/simpleapi/ApiRequestBuilder.java:73-80 | two-state: the builder object's state after the call is `WithEndpoint` of its state before, and the call returns the same object |
| Builder.BuiltRequest.Current | src/main/java/dev/mayuna/simpleapi/ApiRequestBuilder.java:222-282 | the accessors report the builder's URL, endpoint, method, and lists (null when empty) as they are when called; it reads the builder, so it changes when the builder does |
| Builder.BuildObject | src/main/java/dev/mayuna/simpleapi/ApiRequestBuilder.java:220-283 | `build()` returns a new object that refers to the builder itself, and at that moment reports `Build` of the builder's state |
| Builder.BuiltBeforeSetterSeesIt | src/main/java/dev/mayuna/simpleapi/ApiRequestBuilder.java:220-283 | one and the same request object, built before `withPathParameter` and `withEndpoint` are called, reports the old parameter array before and the extended one and the new endpoint afterwards |
| Builder.BuiltEndpoint | src/main/java/dev/mayuna/simpleapi/ApiRequestBuilder.java:248-263 | the built request's endpoint computes from the builder's lists whether or not they are empty |
| Action.FreshLegacy | src/main/java/dev/mayuna/simpleapi/APIResponse.java:12-13 | a fresh legacy response has code 0 and no API |
| Action.NewAction | src/main/java/dev/mayuna/simpleapi/Action.java:25-32 | a new action keeps its arguments and has the throwing error callback |
| Action.Slashed | src/main/java/dev/mayuna/simpleapi/Action.java:51-53 | the endpoint is given a leading slash exactly when it lacks one |
| Action.JoinUrl | src/main/java/dev/mayuna/simpleapi/Action.java:45-56 | as written: a URL ending in `/` loses two characters and the endpoint gets a slash, a one-character such URL throws, any other URL is concatenated as is, a null URL, or a null endpoint after a trailing slash, throws `NullPointerException`, and a null endpoint after any other URL prints as `null` |
| Action.JoinUrlFixed | src/main/java/dev/mayuna/simpleapi/Action.java:48-54 | corrected: the whole URL is kept as a prefix and the slashed endpoint starts at its trailing slash; nulls throw as in the code as written |
| Action.JoinUrlDropsTwoCharacters | src/main/java/dev/mayuna/simpleapi/Action.java:48-49 | `http://a.io/` with `/x` joins to `http://a.i/x` as written and to `http://a.io/x` corrected; `/` throws as written |
| Action.JoinUrlFixedNormalises | src/main/java/dev/mayuna/simpleapi/Action.java:48-54 | with the fix a slash on the endpoint makes no difference |
| Action.Report | src/main/java/dev/mayuna/simpleapi/Action.java:103-107 | the error callback is called with the code and the exception; the default one throws `HttpException` carrying both, a custom one leads to null |
| Action.Deserialize | src/main/java/dev/mayuna/simpleapi/Action.java:87-93 | a custom deserialiser wins over Gson and fills the fresh instance of the response class in place (its return value is dropped); Gson on a non-null, non-string body fails the cast, on a null body yields null, on text yields what `fromJson` decodes; a plain class stays fresh |
| Action.BindLegacy | src/main/java/dev/mayuna/simpleapi/Action.java:95-98 | an `APIResponse` result gets the code and the API; a null result stays null |
| Action.ExecuteFrom | src/main/java/dev/mayuna/simpleapi/Action.java:58-107 | at most one request and one callback event, the callback last; a returned value is the one the success callback saw; null comes only from a consuming error callback or a null deserialisation result |
| Action.Execute | src/main/java/dev/mayuna/simpleapi/Action.java:44-108 | a join failure (null URL, a one-character URL ending in `/`) throws before any event |
| Action.ExecuteCorrected | src/main/java/dev/mayuna/simpleapi/Action.java:44-108 | with the corrected join only a null throws before any event |
| Action.BraceCheckBeforeNetwork | src/main/java/dev/mayuna/simpleapi/Action.java:58-84 | a leftover brace throws `MissingPathParametersException` with the substituted URL and no request; a brace-free accepted URI is sent as is when the method is non-null; a null method throws `NullPointerException` after the URI check, uncaught, with no request and no callback; with no event, the call failed on a rejected URI or on a null method |
| Action.MissingParametersIffUncovered | src/main/java/dev/mayuna/simpleapi/Action.java:58-66 | for a well-formed template URL the exception is raised, before any event, if and only if some placeholder has no parameter |
| Action.ErrorCodeTracksResponse | src/main/java/dev/mayuna/simpleapi/Action.java:68-105 | a reported error carries -1 when it is a URI or transport failure and the response status when it is a reflection failure after the response |
| Action.DefaultCallbackThrows | src/main/java/dev/mayuna/simpleapi/Action.java:25 | with the default callback every reported error ends the call with `HttpException(code, error)`, and null comes only from a null deserialisation result |
| Action.ConsumedErrorReturnsNull | src/main/java/dev/mayuna/simpleapi/Action.java:103-107 | with a callback set by `onHttpError`, every reported error is the last event and the call returns null; a thrown result means no error was reported |
| Action.NullBodyGsonReturnsNull | src/main/java/dev/mayuna/simpleapi/Action.java:91-100 | a Gson class given a null body reaches the success callback with null and `execute()` returns null |
| Action.EnvelopeWrittenAfterDeserialisation | src/main/java/dev/mayuna/simpleapi/Action.java:87-102 | a returned `APIResponse` carries the response status and the API, whatever the deserialiser produced |
| Action.DefaultHeadersFirst | src/main/java/dev/mayuna/simpleapi/Action.java:75-82 | the sent request has the request's method and the API default headers before those `processHttpRequestBuilder` adds |

## Left out

- HTTP transport: `HttpClient`, `HttpRequest.Builder`, body publishers and handlers are an oracle. Timeouts are only checked for positivity and recorded on the wire request; they are whole seconds, so a sub-second `Duration` is not modelled. `createHttpClientInstance` and `createHttpRequestBuilderInstance` are not modelled.
- `java.net.URI` validity is an oracle (`UriCheck`).
- Header names or non-null method names the HTTP client rejects are not modelled. A null method is modelled in both pipelines: `Send.Prepare` and `Action.BraceCheckBeforeNetwork`.
- Reflection is reduced to capability flags on the response class. A class either constructs or fails with a reflection error.
- Gson is an oracle (`fromJson`). `getGson()` and the JSON format are not modelled.
- Threads: `runAsync`, `getThreadFactory` and the thread in `sendAsync` are left out. Only the future's final outcome is modelled (`Send.SendAsync`).
- Hooks are observation points in the trace. A hook that throws is not modelled.
- The legacy success callback and a custom error callback are events. A callback that throws is not modelled.
- `processHttpRequestBuilder` is modelled only as the headers it adds after the defaults.
- Lombok `@NonNull` checks on builder and value arguments: the model's arguments are never null.
- String lengths count Dafny characters, not UTF-16 code units: `length() - 2` in Action.java:48 is modelled on `seq<char>`, which differs from Java only for text outside the Basic Multilingual Plane.
- Exception message texts are not modelled (`HttpException`, `MissingPathParametersException`, "Invalid URI").
- Action.ExecuteCorrected: its contract covers only the join; the rest of the run is `Action.ExecuteFrom`, whose lemmas hold for both joins.

## Findings

| source | as written | input that shows it | evidently intended | confidence | as-written member | corrected member |
|---|---|---|---|---|---|---|
| src/main/java/dev/mayuna/simpleapi/Action.java:48-49 | a base URL ending in `/` is cut with `substring(0, length() - 2)`, which drops the slash AND the character before it; a base URL of length 1 throws `StringIndexOutOfBoundsException` | base `http://a.io/`, endpoint `/x`: the request goes to `http://a.i/x`; base `/` throws | drop only the trailing slash (`length() - 1`), giving `http://a.io/x` | high (not executed) | Action.JoinUrl (shown by Action.JoinUrlDropsTwoCharacters) | Action.JoinUrlFixed (shown by Action.JoinUrlFixedNormalises) |

=== FILE: action.dfy ===
/** The legacy pipeline: `Action.execute()` of the first API generation.

    1. Join the API URL and the request endpoint. When the URL ends with a
       slash, the code drops its last TWO characters and gives the endpoint
       a leading slash; otherwise the two are concatenated as they are.
    2. Substitute every path parameter's `{id}` token over the whole URL,
       in list order.
    3. Raise `MissingPathParametersException` when a brace is left: this
       happens before any request is built.
    4. Build and send the request: default headers first, then whatever
       `processHttpRequestBuilder` adds; the method carries no body.
    5. Instantiate the response class reflectively, deserialise (a
       `CustomDeserializer` before Gson), and only THEN write the response
       code and API into an `APIResponse`.
    6. Call the success callback and return.

    A URI syntax error, a transport failure or a reflection failure is
    caught: the error callback receives the code (-1 before a response
    exists, the status after) and the call returns null. The default
    callback throws `HttpException`.

    `Execute` is the code as written; `ExecuteCorrected` drops a single
    trailing slash instead of two characters.
 */
module Action {
  import opened Outcomes
  import opened Text
  import opened Values
  import opened Response
  import opened PathTemplate
  import opened Send

  /** `SimpleAPI`: the URL it reports (possibly null) and its default
      headers (null by default). */
  datatype SimpleApi = SimpleApi(url: Option<string>, defaultHeaders: Option<seq<Header>>)

  /** `APIRequest`. `verb` is `getMethod()`, possibly null; `addedHeaders`
      are the headers its `processHttpRequestBuilder` adds. */
  datatype LegacyRequest = LegacyRequest(
    endpoint: Option<string>,
    verb: Option<string>,
    pathParameters: Option<seq<PathParameter>>,
    addedHeaders: seq<Header>,
    bodyHandler: BodyHandler)

  /** What the reflection and deserialisation steps know of a class. */
  datatype LegacyClass = LegacyClass(
    name: string,
    hasNoArgConstructor: bool,
    isCustomDeserializer: bool,
    isGsonDeserializer: bool,
    isApiResponse: bool)

  /** An object of a response class; `responseCode` and `api` are the
      `APIResponse` fields. */
  datatype LegacyInstance = LegacyInstance(cls: LegacyClass, responseCode: int, api: Option<SimpleApi>, content: string)

  /** A newly constructed instance: Java's field defaults. */
  function FreshLegacy(cls: LegacyClass): (r: LegacyInstance)
    ensures r.cls == cls && r.responseCode == 0 && r.api == None && r.content == []
  {
    LegacyInstance(cls, 0, None, [])
  }

  /** The default error callback throws; one set with `onHttpError`
      consumes the error. */
  datatype ErrorCallback = ThrowHttpException | ConsumeError

  datatype Action = Action(api: SimpleApi, responseClass: LegacyClass, apiRequest: LegacyRequest, onHttpError: ErrorCallback)

  /** `new Action(api, responseClass, apiRequest)`: the default callback. */
  function NewAction(api: SimpleApi, cls: LegacyClass, req: LegacyRequest): (a: Action)
    ensures a.api == api && a.responseClass == cls && a.apiRequest == req
    ensures a.onHttpError == ThrowHttpException
  {
    Action(api, cls, req, ThrowHttpException)
  }

  /** The request handed to the HTTP client. */
  datatype LegacyWire = LegacyWire(uri: string, verb: string, headers: seq<Header>, handler: BodyHandler)

  datatype LegacyEvent =
    | LegacySent(request: LegacyWire)
    | HttpErrorReported(code: int, error: Error)
    | SuccessReported(response: RawResponse, value: Option<LegacyInstance>)

  datatype LegacyRun = LegacyRun(trace: seq<LegacyEvent>, result: Outcome<LegacyInstance>)

  /** The URI check, the HTTP client, a `CustomDeserializer`'s
      `deserialize(body)` and Gson's `fromJson` (which may return null).
      `deserialize` mutates the instance it is called on and its return
      value is discarded, so the oracle yields only the instance's new
      content. */
  datatype LegacyEnvironment = LegacyEnvironment(
    uri: string -> UriCheck,
    transport: LegacyWire -> Result<RawResponse>,
    custom: (LegacyInstance, Body) -> Result<string>,
    fromJson: (string, LegacyClass) -> Result<Option<LegacyInstance>>)

  /** The endpoint with a leading slash. */
  function Slashed(endpoint: string): (r: string)
    ensures StartsWith(r, "/")
    ensures StartsWith(endpoint, "/") ==> r == endpoint
    ensures !StartsWith(endpoint, "/") ==> r == "/" + endpoint
  {
    if StartsWith(endpoint, "/") then endpoint else "/" + endpoint
  }

  /** URL joining AS WRITTEN: a trailing slash costs two characters, and a
      one-character URL makes `substring` throw. A null URL or (after a
      trailing slash) a null endpoint throws NullPointerException; a null
      endpoint otherwise concatenates as "null". */
  function JoinUrl(url: Option<string>, endpoint: Option<string>): (r: Result<string>)
    ensures url.None? ==> r == Failure(NullPointer)
    ensures url.Some? && EndsWith(url.value, "/") && |url.value| < 2 ==> r == Failure(IndexOutOfBounds)
    ensures url.Some? && EndsWith(url.value, "/") && |url.value| >= 2 && endpoint.None? ==> r == Failure(NullPointer)
    ensures url.Some? && EndsWith(url.value, "/") && |url.value| >= 2 && endpoint.Some? ==>
              r == Success(url.value[..|url.value| - 2] + Slashed(endpoint.value))
    ensures url.Some? && !EndsWith(url.value, "/") ==> r == Success(url.value + endpoint.GetOr("null"))
  {
    match url
    case None => Failure(NullPointer)
    case Some(start) =>
      if EndsWith(start, "/") then
        if |start| < 2 then Failure(IndexOutOfBounds)
        else match endpoint
          case None => Failure(NullPointer)
          case Some(e) => Success(start[..|start| - 2] + Slashed(e))
      else Success(start + endpoint.GetOr("null"))
  }

  /** The join with the trailing slash dropped, as the code evidently
      intends. */
  function JoinUrlFixed(url: Option<string>, endpoint: Option<string>): (r: Result<string>)
    ensures url.None? ==> r == Failure(NullPointer)
    ensures url.Some? && EndsWith(url.value, "/") && endpoint.None? ==> r == Failure(NullPointer)
    ensures url.Some? && EndsWith(url.value, "/") && endpoint.Some? ==>
              r.Success? && url.value <= r.value && r.value[|url.value| - 1..] == Slashed(endpoint.value)
    ensures url.Some? && !EndsWith(url.value, "/") ==> r == Success(url.value + endpoint.GetOr("null"))
  {
    match url
    case None => Failure(NullPointer)
    case Some(start) =>
      if EndsWith(start, "/") then
        match endpoint
        case None => Failure(NullPointer)
        case Some(e) =>
          var r := start[..|start| - 1] + Slashed(e);
          assert r[..|start|] == start;
          assert r[|start| - 1..] == Slashed(e);
          Success(r)
      else Success(start + endpoint.GetOr("null"))
  }

  /** The two joins differ exactly on URLs with a trailing slash: the code
      as written loses the character before it. */
  lemma JoinUrlDropsTwoCharacters()
    ensures JoinUrl(Some("http://a.io/"), Some("/x")) == Success("http://a.i/x")
    ensures JoinUrlFixed(Some("http://a.io/"), Some("/x")) == Success("http://a.io/x")
    ensures JoinUrl(Some("/"), Some("x")) == Failure(IndexOutOfBounds)
    ensures JoinUrlFixed(Some("/"), Some("x")) == Success("/x")
  {
    assert "http://a.io/"[12 - 1..] == "/" && "http://a.io/"[..10] == "http://a.i";
    assert "http://a.io/"[..11] == "http://a.io";
    assert "/x"[..1] == "/" && "x"[..1] == "x";
    assert Slashed("/x") == "/x" && Slashed("x") == "/x";
    assert "/"[1 - 1..] == "/" && "/"[..0] == [];
    assert "http://a.i" + "/x" == "http://a.i/x" && "http://a.io" + "/x" == "http://a.io/x";
  }

  /** With the fix, whether either side carries the slash makes no
      difference. */
  lemma JoinUrlFixedNormalises(u: string, e: string)
    requires !EndsWith(u, "/") && !StartsWith(e, "/")
    ensures JoinUrlFixed(Some(u + "/"), Some(e)) == Success(u + "/" + e)
    ensures JoinUrlFixed(Some(u + "/"), Some("/" + e)) == Success(u + "/" + e)
  {
    assert (u + "/")[|u|..] == "/" && (u + "/")[..|u|] == u;
    assert ("/" + e)[..1] == "/";
    assert Slashed(e) == "/" + e && Slashed("/" + e) == "/" + e;
    assert u + ("/" + e) == u + "/" + e;
  }

  /** The error callback's effect: the event, then the thrown
      `HttpException` or null. */
  function Report(a: Action, code: int, e: Error, trace: seq<LegacyEvent>): (r: LegacyRun)
    ensures r.trace == trace + [HttpErrorReported(code, e)]
    ensures a.onHttpError == ThrowHttpException ==> r.result == Thrown(Http(code, e))
    ensures a.onHttpError == ConsumeError ==> r.result == ReturnedNull
  {
    LegacyRun(trace + [HttpErrorReported(code, e)],
              if a.onHttpError == ThrowHttpException then Thrown(Http(code, e)) else ReturnedNull)
  }

  /** Lines 87-93: a fresh instance, then the custom deserialiser (which
      fills the instance in place), or Gson on the body cast to a string. A
      null body passes the cast, and Gson decodes a null string to null. */
  function Deserialize(cls: LegacyClass, resp: RawResponse, env: LegacyEnvironment): (r: Result<Option<LegacyInstance>>)
    requires cls.hasNoArgConstructor
    ensures cls.isCustomDeserializer && env.custom(FreshLegacy(cls), resp.body).Failure? ==>
              r == Failure(env.custom(FreshLegacy(cls), resp.body).error)
    ensures cls.isCustomDeserializer && env.custom(FreshLegacy(cls), resp.body).Success? ==>
              r == Success(Some(FreshLegacy(cls).(content := env.custom(FreshLegacy(cls), resp.body).value)))
    ensures !cls.isCustomDeserializer && cls.isGsonDeserializer && resp.body.Opaque? ==> r == Failure(ClassCast)
    ensures !cls.isCustomDeserializer && cls.isGsonDeserializer && resp.body.NullBody? ==> r == Success(None)
    ensures !cls.isCustomDeserializer && cls.isGsonDeserializer && resp.body.Text? ==> r == env.fromJson(resp.body.text, cls)
    ensures !cls.isCustomDeserializer && !cls.isGsonDeserializer ==> r == Success(Some(FreshLegacy(cls)))
    ensures (cls.isCustomDeserializer || !cls.isGsonDeserializer) && r.Success? ==>
              r.value.Some? && r.value.value.cls == cls && r.value.value.responseCode == 0 && r.value.value.api == None
  {
    var t := FreshLegacy(cls);
    if cls.isCustomDeserializer then
      var content :- env.custom(t, resp.body);
      Success(Some(t.(content := content)))
    else if cls.isGsonDeserializer then
      match resp.body
      case Text(s) => env.fromJson(s, cls)
      case Opaque(_) => Failure(ClassCast)
      case NullBody => Success(None)
    else Success(Some(t))
  }

  /** Lines 95-98: the code and API written into an `APIResponse`, after
      deserialisation; a null result is left null. */
  function BindLegacy(t: Option<LegacyInstance>, code: int, api: SimpleApi): (r: Option<LegacyInstance>)
    ensures t.None? <==> r.None?
    ensures t.Some? ==> r.value.cls == t.value.cls && r.value.content == t.value.content
    ensures t.Some? && t.value.cls.isApiResponse ==> r.value.responseCode == code && r.value.api == Some(api)
    ensures t.Some? && !t.value.cls.isApiResponse ==> r == t
  {
    match t
    case None => None
    case Some(v) => if v.cls.isApiResponse then Some(v.(responseCode := code, api := Some(api))) else t
  }

  /** Steps 2-6 of `execute()`, from the joined URL on. */
  function ExecuteFrom(joined: Result<string>, a: Action, env: LegacyEnvironment): (r: LegacyRun)
    ensures joined.Failure? ==> r == LegacyRun([], Thrown(joined.error))
    ensures |r.trace| <= 2 && forall i :: 0 <= i < |r.trace| - 1 ==> r.trace[i].LegacySent?
    ensures r.result.Returned? ==>
              |r.trace| == 2 && r.trace[1].SuccessReported? && r.trace[1].value == Some(r.result.value)
    ensures r.result.ReturnedNull? ==>
              |r.trace| > 0 &&
              ((r.trace[|r.trace| - 1].HttpErrorReported? && a.onHttpError == ConsumeError) ||
               (r.trace[|r.trace| - 1].SuccessReported? && r.trace[|r.trace| - 1].value == None))
  {
    match joined
    case Failure(e) => LegacyRun([], Thrown(e))
    case Success(start) =>
      var url := Substitute(start, a.apiRequest.pathParameters.GetOr([]));
      if !BraceFree(url) then LegacyRun([], Thrown(MissingPathParameters(url)))
      else match env.uri(url)
        case SyntaxError => Report(a, -1, UriSyntax(url), [])
        case Rejected => LegacyRun([], Thrown(UriRejected(url)))
        case Accepted =>
          // `HttpRequest.Builder.method(null, ...)` throws a
          // NullPointerException, which the catch clause does not name.
          match a.apiRequest.verb
          case None => LegacyRun([], Thrown(NullPointer))
          case Some(verb) =>
            var wire := LegacyWire(url, verb,
                                   a.api.defaultHeaders.GetOr([]) + a.apiRequest.addedHeaders,
                                   a.apiRequest.bodyHandler);
            var sent := [LegacySent(wire)];
            match env.transport(wire)
            case Failure(e) => if e.Transport? then Report(a, -1, e, sent) else LegacyRun(sent, Thrown(e))
            case Success(resp) =>
              if !a.responseClass.hasNoArgConstructor then Report(a, resp.statusCode, Reflection, sent)
              else match Deserialize(a.responseClass, resp, env)
                case Failure(e) => LegacyRun(sent, Thrown(e))
                case Success(t) =>
                  var bound := BindLegacy(t, resp.statusCode, a.api);
                  LegacyRun(sent + [SuccessReported(resp, bound)],
                            if bound.Some? then Returned(bound.value) else ReturnedNull)
  }

  /** `execute()` as written. */
  function Execute(a: Action, env: LegacyEnvironment): (r: LegacyRun)
    ensures JoinUrl(a.api.url, a.apiRequest.endpoint).Failure? ==>
              r == LegacyRun([], Thrown(JoinUrl(a.api.url, a.apiRequest.endpoint).error))
    ensures a.api.url.Some? && EndsWith(a.api.url.value, "/") && |a.api.url.value| < 2 ==>
              r == LegacyRun([], Thrown(IndexOutOfBounds))
  {
    ExecuteFrom(JoinUrl(a.api.url, a.apiRequest.endpoint), a, env)
  }

  /** `execute()` with the corrected join. */
  function ExecuteCorrected(a: Action, env: LegacyEnvironment): (r: LegacyRun)
    ensures JoinUrlFixed(a.api.url, a.apiRequest.endpoint).Failure? ==> r.trace == [] && r.result == Thrown(NullPointer)
  {
    ExecuteFrom(JoinUrlFixed(a.api.url, a.apiRequest.endpoint), a, env)
  }

  /** Step 3 runs before any request: a leftover brace means the
      exception and no event; otherwise the URI check decides, and an
      accepted URI is sent when the method is non-null. A null method
      passes the URI check and then throws a NullPointerException that
      escapes `execute()`: nothing is sent and no callback runs. */
  lemma BraceCheckBeforeNetwork(start: string, a: Action, env: LegacyEnvironment)
    ensures var r, url := ExecuteFrom(Success(start), a, env), Substitute(start, a.apiRequest.pathParameters.GetOr([]));
            !BraceFree(url) ==> r == LegacyRun([], Thrown(MissingPathParameters(url)))
    ensures var r, url := ExecuteFrom(Success(start), a, env), Substitute(start, a.apiRequest.pathParameters.GetOr([]));
            BraceFree(url) && env.uri(url) == Accepted && a.apiRequest.verb.Some? ==>
              |r.trace| > 0 && r.trace[0].LegacySent? && r.trace[0].request.uri == url
    ensures var r, url := ExecuteFrom(Success(start), a, env), Substitute(start, a.apiRequest.pathParameters.GetOr([]));
            BraceFree(url) && env.uri(url) == Accepted && a.apiRequest.verb.None? ==>
              r == LegacyRun([], Thrown(NullPointer))
    ensures var r, url := ExecuteFrom(Success(start), a, env), Substitute(start, a.apiRequest.pathParameters.GetOr([]));
            BraceFree(url) && r.trace == [] ==>
              r.result == (if env.uri(url) == Rejected then Thrown(UriRejected(url)) else Thrown(NullPointer))
  {
  }

  /** For a URL that is a well-formed template, the exception is raised
      exactly when some placeholder has no parameter. */
  lemma MissingParametersIffUncovered(segs: seq<Segment>, a: Action, env: LegacyEnvironment)
    requires WellFormed(segs) && BraceFreeParameters(a.apiRequest.pathParameters.GetOr([]))
    ensures var r := ExecuteFrom(Success(Render(segs)), a, env);
            r.trace == [] && r.result.Thrown? && r.result.error.MissingPathParameters?
            <==> !Covered(segs, a.apiRequest.pathParameters.GetOr([]))
  {
    SubstitutedBraceFreeIffCovered(segs, a.apiRequest.pathParameters.GetOr([]));
    BraceCheckBeforeNetwork(Render(segs), a, env);
  }

  /** Every reported error carries -1 when it happened before a response
      and the response status otherwise. */
  lemma ErrorCodeTracksResponse(start: string, a: Action, env: LegacyEnvironment)
    ensures var r := ExecuteFrom(Success(start), a, env);
            forall i :: 0 <= i < |r.trace| && r.trace[i].HttpErrorReported? ==>
              var ev := r.trace[i];
              ((ev.error.UriSyntax? || ev.error.Transport?) && ev.code == -1) ||
              (ev.error == Reflection && i == 1 && r.trace[0].LegacySent? &&
               env.transport(r.trace[0].request).Success? &&
               ev.code == env.transport(r.trace[0].request).value.statusCode)
  {
    var r := ExecuteFrom(Success(start), a, env);
    var url := Substitute(start, a.apiRequest.pathParameters.GetOr([]));
    if BraceFree(url) && env.uri(url) == Accepted && a.apiRequest.verb.Some? {
      var wire := r.trace[0].request;
      match env.transport(wire)
      case Failure(e) =>
      case Success(resp) =>
        if !a.responseClass.hasNoArgConstructor {
          assert r.trace == [LegacySent(wire), HttpErrorReported(resp.statusCode, Reflection)];
        } else {
          assert forall i :: 0 <= i < |r.trace| ==> !r.trace[i].HttpErrorReported?;
        }
    }
  }

  /** With the default callback every caught failure becomes an
      `HttpException`; `execute()` then never returns null from the
      `catch` clause. */
  lemma DefaultCallbackThrows(start: string, a: Action, env: LegacyEnvironment)
    requires a.onHttpError == ThrowHttpException
    ensures var r := ExecuteFrom(Success(start), a, env);
            r.result.ReturnedNull? ==> r.trace[|r.trace| - 1].SuccessReported?
    ensures var r := ExecuteFrom(Success(start), a, env);
            forall i :: 0 <= i < |r.trace| && r.trace[i].HttpErrorReported? ==>
              r.result == Thrown(Http(r.trace[i].code, r.trace[i].error))
  {
    var r := ExecuteFrom(Success(start), a, env);
    var url := Substitute(start, a.apiRequest.pathParameters.GetOr([]));
    if BraceFree(url) && env.uri(url) == Accepted && a.apiRequest.verb.Some? {
      var wire := r.trace[0].request;
      match env.transport(wire)
      case Failure(e) =>
      case Success(resp) =>
        if a.responseClass.hasNoArgConstructor {
          assert forall i :: 0 <= i < |r.trace| ==> !r.trace[i].HttpErrorReported?;
        }
    }
  }

  /** With a callback set through `onHttpError` every caught failure ends
      the call in null, right after the callback has seen it; and a null
      result comes either from such a callback or from a null
      deserialisation result. */
  lemma ConsumedErrorReturnsNull(start: string, a: Action, env: LegacyEnvironment)
    requires a.onHttpError == ConsumeError
    ensures var r := ExecuteFrom(Success(start), a, env);
            forall i :: 0 <= i < |r.trace| && r.trace[i].HttpErrorReported? ==>
              r.result == ReturnedNull && i == |r.trace| - 1
    ensures var r := ExecuteFrom(Success(start), a, env);
            r.result.Thrown? ==> forall i :: 0 <= i < |r.trace| ==> !r.trace[i].HttpErrorReported?
  {
    var r := ExecuteFrom(Success(start), a, env);
    var url := Substitute(start, a.apiRequest.pathParameters.GetOr([]));
    if BraceFree(url) && env.uri(url) == Accepted && a.apiRequest.verb.Some? {
      var wire := r.trace[0].request;
      match env.transport(wire)
      case Failure(e) =>
      case Success(resp) =>
        if a.responseClass.hasNoArgConstructor {
          assert forall i :: 0 <= i < |r.trace| ==> !r.trace[i].HttpErrorReported?;
        }
    }
  }

  /** A Gson class given a null body: the cast lets it through, `fromJson`
      yields null, the success callback sees null and `execute()` returns
      null. */
  lemma NullBodyGsonReturnsNull(start: string, a: Action, env: LegacyEnvironment)
    requires a.responseClass.hasNoArgConstructor
    requires !a.responseClass.isCustomDeserializer && a.responseClass.isGsonDeserializer
    requires var r := ExecuteFrom(Success(start), a, env);
             |r.trace| > 0 && r.trace[0].LegacySent? && env.transport(r.trace[0].request).Success? &&
             env.transport(r.trace[0].request).value.body.NullBody?
    ensures var r := ExecuteFrom(Success(start), a, env);
            r.result == ReturnedNull && |r.trace| == 2 && r.trace[1].SuccessReported? && r.trace[1].value == None
  {
  }

  /** Unlike the new API, a Gson-deserialised legacy response keeps the
      status and API: they are written after `fromJson` replaced the
      instance. */
  lemma EnvelopeWrittenAfterDeserialisation(start: string, a: Action, env: LegacyEnvironment)
    requires var r := ExecuteFrom(Success(start), a, env);
             r.result.Returned? && r.result.value.cls.isApiResponse
    ensures var r := ExecuteFrom(Success(start), a, env);
            |r.trace| == 2 && r.trace[1].SuccessReported? &&
            r.result.value.responseCode == r.trace[1].response.statusCode &&
            r.result.value.api == Some(a.api)
  {
    var r := ExecuteFrom(Success(start), a, env);
    var url := Substitute(start, a.apiRequest.pathParameters.GetOr([]));
    assert BraceFree(url) && env.uri(url) == Accepted;
    var wire := r.trace[0].request;
    var resp := env.transport(wire).value;
    var t := Deserialize(a.responseClass, resp, env).value;
    assert r.result.value == BindLegacy(t, resp.statusCode, a.api).value;
  }

  /** The request that is sent carries the request's method, the default
      headers first and then the request's own. */
  lemma DefaultHeadersFirst(start: string, a: Action, env: LegacyEnvironment)
    requires var r := ExecuteFrom(Success(start), a, env);
             |r.trace| > 0 && r.trace[0].LegacySent?
    ensures var r := ExecuteFrom(Success(start), a, env);
            a.apiRequest.verb == Some(r.trace[0].request.verb) &&
            r.trace[0].request.headers == a.api.defaultHeaders.GetOr([]) + a.apiRequest.addedHeaders
  {
  }
}

=== FILE: api.dfy ===
/** The API definition (`WrappedApi`): what its overridable methods report.

    Hooks (`onApiRequest`, `onAfterApiRequest`, `onAfterHandledApiRequest`,
    `onException`) are pure observation points and appear as events of a
    send trace (module Send), not as fields here.
 */
module Api {
  import opened Outcomes
  import opened Values

  /** A `WrappedApi` implementation. */
  datatype WrappedApi = WrappedApi(
    defaultUrl: Option<string>,                           // getDefaultUrl(), nullable
    defaultRequestHeaders: Option<seq<RequestHeader>>,    // getDefaultRequestHeaders(), nullable
    timeoutSeconds: int,                                  // getTimeoutDuration(), whole seconds, any sign
    rethrowExceptions: bool)                              // rethrowExceptions()

  const DefaultTimeoutSeconds: int := 10

  /** An implementation that overrides only the abstract `getDefaultUrl`:
      no default headers, a ten-second timeout, failures rethrown. */
  function WithDefaultUrl(url: string): (r: WrappedApi)
    ensures r.defaultUrl == Some(url)
    ensures r.defaultRequestHeaders == None
    ensures r.timeoutSeconds == 10
    ensures r.rethrowExceptions
  {
    WrappedApi(Some(url), None, DefaultTimeoutSeconds, true)
  }
}

=== FILE: builder.dfy ===
/** `ApiRequestBuilder`: fluent construction of a request descriptor.

    Setters normalise the URL (one trailing slash dropped) and the endpoint
    (a leading slash ensured); the `with…s` forms add a first element and
    then, unless the array is null, each further element in order.

    `build()` returns an anonymous request whose accessors read the
    builder's fields when they are called: it is a live view, not a
    snapshot. `Build(b)` is what those accessors report while the builder
    is in state `b`. `BuilderObject` and `BuiltRequest` model the two
    objects and the reference between them, and `BuiltBeforeSetterSeesIt`
    shows that a setter called after `build()` changes what the earlier
    built request reports. Nothing is checked at build time.
 */
module Builder {
  import opened Outcomes
  import opened Text
  import opened Values
  import opened Api
  import opened Response
  import opened Request
  import opened Endpoint

  datatype ApiRequestBuilder = ApiRequestBuilder(
    wrappedApi: WrappedApi,
    responseClass: ResponseClass,
    url: Option<string>,
    endpoint: Option<string>,
    requestMethod: Option<RequestMethod>,
    pathParameters: seq<PathParameter>,
    requestQueries: seq<RequestQuery>,
    requestHeaders: seq<RequestHeader>,
    bodyPublisher: Option<BodyPublisher>,
    bodyHandler: Option<BodyHandler>)

  /** `ofResponse(wrappedApi, responseClass)`: nothing set, lists empty. */
  function OfResponse(api: WrappedApi, cls: ResponseClass): (b: ApiRequestBuilder)
    ensures b.wrappedApi == api && b.responseClass == cls
    ensures b.url == None && b.endpoint == None && b.requestMethod == None
    ensures b.pathParameters == [] && b.requestQueries == [] && b.requestHeaders == []
    ensures b.bodyPublisher == None && b.bodyHandler == None
  {
    ApiRequestBuilder(api, cls, None, None, None, [], [], [], None, None)
  }

  /** `withUrl(url)`: at most ONE trailing slash is removed. */
  function WithUrl(b: ApiRequestBuilder, url: string): (r: ApiRequestBuilder)
    ensures r == b.(url := r.url) && r.url.Some?
    ensures EndsWith(url, "/") ==> r.url.value + "/" == url
    ensures !EndsWith(url, "/") ==> r.url.value == url
  {
    if EndsWith(url, "/") then b.(url := Some(url[..|url| - 1])) else b.(url := Some(url))
  }

  /** `withEndpoint(endpoint)`: a leading slash is added when missing. */
  function WithEndpoint(b: ApiRequestBuilder, endpoint: string): (r: ApiRequestBuilder)
    ensures r == b.(endpoint := r.endpoint) && r.endpoint.Some?
    ensures StartsWith(r.endpoint.value, "/")
    ensures StartsWith(endpoint, "/") ==> r.endpoint.value == endpoint
    ensures !StartsWith(endpoint, "/") ==> r.endpoint.value == "/" + endpoint
  {
    if StartsWith(endpoint, "/") then b.(endpoint := Some(endpoint)) else b.(endpoint := Some("/" + endpoint))
  }

  /** `withRequestMethod(RequestMethod)`. */
  function WithRequestMethod(b: ApiRequestBuilder, verb: RequestMethod): (r: ApiRequestBuilder)
    ensures r == b.(requestMethod := Some(verb))
  {
    b.(requestMethod := Some(verb))
  }

  /** `withRequestMethod(String)`: the name wrapped by `RequestMethod.of`. */
  function WithRequestMethodName(b: ApiRequestBuilder, name: string): (r: ApiRequestBuilder)
    ensures r.requestMethod.Some? && r.requestMethod.value.name == name
    ensures r == WithRequestMethod(b, r.requestMethod.value)
  {
    WithRequestMethod(b, MethodOf(name))
  }

  function WithPathParameter(b: ApiRequestBuilder, p: PathParameter): (r: ApiRequestBuilder)
    ensures r == b.(pathParameters := b.pathParameters + [p])
  {
    b.(pathParameters := b.pathParameters + [p])
  }

  function WithRequestQuery(b: ApiRequestBuilder, q: RequestQuery): (r: ApiRequestBuilder)
    ensures r == b.(requestQueries := b.requestQueries + [q])
  {
    b.(requestQueries := b.requestQueries + [q])
  }

  function WithRequestHeader(b: ApiRequestBuilder, h: RequestHeader): (r: ApiRequestBuilder)
    ensures r == b.(requestHeaders := b.requestHeaders + [h])
  {
    b.(requestHeaders := b.requestHeaders + [h])
  }

  /** The loop of `withPathParameters`: the singular setter once per
      element, in order. */
  function AddPathParameters(b: ApiRequestBuilder, ps: seq<PathParameter>): (r: ApiRequestBuilder)
    ensures r == b.(pathParameters := b.pathParameters + ps)
    decreases |ps|
  {
    if |ps| == 0 then b
    else
      var next := WithPathParameter(b, ps[0]);
      assert next.pathParameters + ps[1..] == b.pathParameters + ps;
      AddPathParameters(next, ps[1..])
  }

  function AddRequestQueries(b: ApiRequestBuilder, qs: seq<RequestQuery>): (r: ApiRequestBuilder)
    ensures r == b.(requestQueries := b.requestQueries + qs)
    decreases |qs|
  {
    if |qs| == 0 then b
    else
      var next := WithRequestQuery(b, qs[0]);
      assert next.requestQueries + qs[1..] == b.requestQueries + qs;
      AddRequestQueries(next, qs[1..])
  }

  function AddRequestHeaders(b: ApiRequestBuilder, hs: seq<RequestHeader>): (r: ApiRequestBuilder)
    ensures r == b.(requestHeaders := b.requestHeaders + hs)
    decreases |hs|
  {
    if |hs| == 0 then b
    else
      var next := WithRequestHeader(b, hs[0]);
      assert next.requestHeaders + hs[1..] == b.requestHeaders + hs;
      AddRequestHeaders(next, hs[1..])
  }

  /** `withPathParameters(first, rest...)`; a null `rest` adds only `first`. */
  function WithPathParameters(b: ApiRequestBuilder, first: PathParameter, rest: Option<seq<PathParameter>>): (r: ApiRequestBuilder)
    ensures r == b.(pathParameters := b.pathParameters + [first] + rest.GetOr([]))
  {
    var r := WithPathParameter(b, first);
    if rest.Some? then AddPathParameters(r, rest.value) else r
  }

  function WithRequestQueries(b: ApiRequestBuilder, first: RequestQuery, rest: Option<seq<RequestQuery>>): (r: ApiRequestBuilder)
    ensures r == b.(requestQueries := b.requestQueries + [first] + rest.GetOr([]))
  {
    var r := WithRequestQuery(b, first);
    if rest.Some? then AddRequestQueries(r, rest.value) else r
  }

  function WithRequestHeaders(b: ApiRequestBuilder, first: RequestHeader, rest: Option<seq<RequestHeader>>): (r: ApiRequestBuilder)
    ensures r == b.(requestHeaders := b.requestHeaders + [first] + rest.GetOr([]))
  {
    var r := WithRequestHeader(b, first);
    if rest.Some? then AddRequestHeaders(r, rest.value) else r
  }

  function WithBodyPublisher(b: ApiRequestBuilder, body: BodyPublisher): (r: ApiRequestBuilder)
    ensures r == b.(bodyPublisher := Some(body))
  {
    b.(bodyPublisher := Some(body))
  }

  function WithBodyHandler(b: ApiRequestBuilder, handler: BodyHandler): (r: ApiRequestBuilder)
    ensures r == b.(bodyHandler := Some(handler))
  {
    b.(bodyHandler := Some(handler))
  }

  /** The array an accessor of the built request returns: null for an
      empty list. */
  function ArrayOf<T>(xs: seq<T>): (r: Option<seq<T>>)
    ensures r.GetOr([]) == xs
    ensures r.None? <==> |xs| == 0
  {
    if |xs| == 0 then None else Some(xs)
  }

  /** What the accessors of `build()`'s request report while the builder
      is in state `b`. Unset body strategies fall back to the interface
      defaults. */
  function Build(b: ApiRequestBuilder): (r: ApiRequest)
    ensures r.wrappedApi == b.wrappedApi && r.responseClass == b.responseClass
    ensures r.url == b.url && r.endpoint == b.endpoint && r.requestMethod == b.requestMethod
    ensures r.pathParameters.GetOr([]) == b.pathParameters
    ensures r.requestQueries.GetOr([]) == b.requestQueries
    ensures r.requestHeaders.GetOr([]) == b.requestHeaders
    ensures r.pathParameters.None? <==> |b.pathParameters| == 0
    ensures r.requestQueries.None? <==> |b.requestQueries| == 0
    ensures r.requestHeaders.None? <==> |b.requestHeaders| == 0
    ensures b.bodyPublisher.Some? ==> r.bodyPublisher == b.bodyPublisher.value
    ensures b.bodyPublisher.None? ==> r.bodyPublisher == NoBody
    ensures b.bodyHandler.Some? ==> r.bodyHandler == b.bodyHandler.value
    ensures b.bodyHandler.None? ==> r.bodyHandler == OfString
  {
    ApiRequest(b.wrappedApi, b.responseClass, b.url, b.endpoint, b.requestMethod,
               ArrayOf(b.pathParameters), ArrayOf(b.requestQueries), ArrayOf(b.requestHeaders),
               b.bodyPublisher.GetOr(NoBody), b.bodyHandler.GetOr(OfString))
  }

  /** The built request loses nothing but the distinction between an empty
      list and null: rebuilding a builder from what it reports gives the
      builder back, except that an unset body strategy reads as the
      default. */
  function FromRequest(req: ApiRequest): (b: ApiRequestBuilder)
    ensures b.pathParameters == req.pathParameters.GetOr([])
    ensures b.requestQueries == req.requestQueries.GetOr([])
    ensures b.requestHeaders == req.requestHeaders.GetOr([])
    ensures b.bodyPublisher == Some(req.bodyPublisher) && b.bodyHandler == Some(req.bodyHandler)
  {
    ApiRequestBuilder(req.wrappedApi, req.responseClass, req.url, req.endpoint, req.requestMethod,
                      req.pathParameters.GetOr([]), req.requestQueries.GetOr([]), req.requestHeaders.GetOr([]),
                      Some(req.bodyPublisher), Some(req.bodyHandler))
  }

  lemma BuildRoundTrip(b: ApiRequestBuilder)
    requires b.bodyPublisher.Some? && b.bodyHandler.Some?
    ensures FromRequest(Build(b)) == b
  {
  }

  lemma BuildThenFromRequest(req: ApiRequest)
    requires !(req.pathParameters == Some([])) && !(req.requestQueries == Some([])) && !(req.requestHeaders == Some([]))
    ensures Build(FromRequest(req)) == req
  {
  }

  /** What each list setter and the endpoint setter do to the accessors of
      a built request: the element appears at the end of the reported
      array (never null afterwards), and the method is left alone. */
  lemma BuiltRequestIsLive(b: ApiRequestBuilder, p: PathParameter, q: RequestQuery, h: RequestHeader, e: string)
    ensures Build(WithPathParameter(b, p)).pathParameters == Some(b.pathParameters + [p])
    ensures Build(WithRequestQuery(b, q)).requestQueries == Some(b.requestQueries + [q])
    ensures Build(WithRequestHeader(b, h)).requestHeaders == Some(b.requestHeaders + [h])
    ensures Build(WithEndpoint(b, e)).endpoint.Some? && Build(b).requestMethod == Build(WithEndpoint(b, e)).requestMethod
  {
  }

  /** The builder as an object: every `with…` call mutates it and returns
      it. */
  class BuilderObject {
    var state: ApiRequestBuilder

    constructor (b: ApiRequestBuilder)
      ensures state == b
    {
      state := b;
    }

    /** `withPathParameter(p)`. */
    method AddPathParameter(p: PathParameter) returns (self: BuilderObject)
      modifies this
      ensures state == WithPathParameter(old(state), p) && self == this
    {
      state := WithPathParameter(state, p);
      self := this;
    }

    /** `withEndpoint(e)`. */
    method SetEndpoint(e: string) returns (self: BuilderObject)
      modifies this
      ensures state == WithEndpoint(old(state), e) && self == this
    {
      state := WithEndpoint(state, e);
      self := this;
    }
  }

  /** The anonymous request `build()` returns: it keeps a reference to the
      builder and copies nothing. */
  class BuiltRequest {
    const builder: BuilderObject

    constructor (b: BuilderObject)
      ensures builder == b
    {
      builder := b;
    }

    /** What the accessors report when they are called: the builder's
        fields as they are at that moment. */
    function Current(): (r: ApiRequest)
      reads builder
      ensures r.url == builder.state.url && r.endpoint == builder.state.endpoint
      ensures r.requestMethod == builder.state.requestMethod
      ensures r.pathParameters == ArrayOf(builder.state.pathParameters)
      ensures r.requestQueries == ArrayOf(builder.state.requestQueries)
      ensures r.requestHeaders == ArrayOf(builder.state.requestHeaders)
    {
      Build(builder.state)
    }
  }

  /** `build()` on a builder object. */
  method BuildObject(b: BuilderObject) returns (r: BuiltRequest)
    ensures r.builder == b && fresh(r)
    ensures r.Current() == Build(b.state)
  {
    r := new BuiltRequest(b);
  }

  /** A request built BEFORE `withPathParameter` and `withEndpoint` are
      called reports their effect afterwards: the accessors of one and the
      same built request give different answers before and after. */
  method BuiltBeforeSetterSeesIt(b: ApiRequestBuilder, p: PathParameter, e: string)
    returns (before: Option<seq<PathParameter>>, after: Option<seq<PathParameter>>, endpoint: Option<string>)
    ensures before == ArrayOf(b.pathParameters)
    ensures after == Some(b.pathParameters + [p]) && before != after
    ensures endpoint.Some? && StartsWith(endpoint.value, "/")
    ensures StartsWith(e, "/") ==> endpoint == Some(e)
  {
    var builder := new BuilderObject(b);
    var request := BuildObject(builder);
    before := request.Current().pathParameters;
    var same := builder.AddPathParameter(p);
    same := same.SetEndpoint(e);
    after := request.Current().pathParameters;
    endpoint := request.Current().endpoint;
  }

  /** Endpoint normalisation is idempotent. */
  lemma WithEndpointIdempotent(b: ApiRequestBuilder, e: string)
    ensures WithEndpoint(WithEndpoint(b, e), WithEndpoint(b, e).endpoint.value) == WithEndpoint(b, e)
  {
  }

  /** URL normalisation is not: only one slash goes per call. */
  lemma WithUrlStripsOneSlash(b: ApiRequestBuilder)
    ensures WithUrl(b, "a//").url == Some("a/")
    ensures WithUrl(WithUrl(b, "a//"), "a/").url == Some("a")
    ensures WithUrl(b, "/").url == Some("")
  {
    assert EndsWith("a//", "/") && "a//"[..2] == "a/";
    assert EndsWith("a/", "/") && "a/"[..1] == "a";
  }

  /** The base URL and the endpoint meet in exactly one slash whether or
      not the caller wrote one on either side. */
  lemma OneSeparator(b: ApiRequestBuilder, u: string, e: string)
    requires !EndsWith(u, "/") && !StartsWith(e, "/")
    ensures WithEndpoint(WithUrl(b, u), e).url.value + WithEndpoint(WithUrl(b, u), e).endpoint.value == u + "/" + e
    ensures WithEndpoint(WithUrl(b, u + "/"), e).url.value + WithEndpoint(WithUrl(b, u + "/"), e).endpoint.value == u + "/" + e
    ensures WithEndpoint(WithUrl(b, u), "/" + e).url.value + WithEndpoint(WithUrl(b, u), "/" + e).endpoint.value == u + "/" + e
    ensures WithEndpoint(WithUrl(b, u + "/"), "/" + e).url.value + WithEndpoint(WithUrl(b, u + "/"), "/" + e).endpoint.value == u + "/" + e
  {
    assert EndsWith(u + "/", "/") && (u + "/")[..|u|] == u;
    assert StartsWith("/" + e, "/");
  }

  /** What a built request's endpoint computes to is the builder's template
      with the builder's lists, whether or not they are empty. */
  lemma BuiltEndpoint(b: ApiRequestBuilder)
    requires b.endpoint.Some?
    ensures ComputedEndpoint(Build(b)) ==
              Success(Some(ComputeEndpoint(b.endpoint.value, b.pathParameters, b.requestQueries)))
  {
  }

  /** The plural setters equal repeated singular ones. */
  lemma PluralIsRepeatedSingular(b: ApiRequestBuilder, p1: PathParameter, p2: PathParameter)
    ensures WithPathParameters(b, p1, Some([p2])) == WithPathParameter(WithPathParameter(b, p1), p2)
    ensures WithPathParameters(b, p1, None) == WithPathParameter(b, p1)
  {
  }
}

=== FILE: endpoint.dfy ===
/** Endpoint computation of the new pipeline. `WrappedApi.computeEndpoint`
    and `ApiRequest.getComputedEndpoint` are the same algorithm written
    twice; the first is the function `ComputedEndpoint`, the second the
    loop-based method `GetComputedEndpoint`, proved to agree with it.

    1. Every path parameter, in list order, replaces its `{id}`.
    2. The queries are appended: `?` before the first, `&` before each later
       one, each rendered `name=value` with no encoding.
 */
module Endpoint {
  import opened Outcomes
  import opened Text
  import opened Values
  import opened PathTemplate
  import opened Request

  /** `name=value`. */
  function Field(q: RequestQuery): (r: string)
    ensures |r| == |q.name| + 1 + |q.value|
    ensures r[|q.name|] == '='
  {
    q.name + "=" + q.value
  }

  /** The symbol written before the query at position `i`. */
  function QuerySymbol(i: nat): (r: string)
    ensures |r| == 1
    ensures r == "?" <==> i == 0
    ensures r == "&" <==> i > 0
  {
    if i == 0 then "?" else "&"
  }

  /** The text the query loop appends: the loop body appends
      `QuerySymbol(i) + Field(qs[i])` for i = 0, 1, ... */
  function RenderQueries(qs: seq<RequestQuery>): (r: string)
    ensures |qs| == 0 <==> r == ""
    ensures |qs| > 0 ==> r[0] == '?'
    decreases |qs|
  {
    if |qs| == 0 then ""
    else RenderQueries(qs[..|qs| - 1]) + QuerySymbol(|qs| - 1) + Field(qs[|qs| - 1])
  }

  /** The computed endpoint of a non-null endpoint template. */
  function ComputeEndpoint(endpoint: string, ps: seq<PathParameter>, qs: seq<RequestQuery>): (r: string)
    ensures Substitute(endpoint, ps) <= r
    ensures |qs| == 0 ==> r == Substitute(endpoint, ps)
    ensures |ps| == 0 && |qs| == 0 ==> r == endpoint
    ensures |qs| > 0 ==> |r| > |Substitute(endpoint, ps)| && r[|Substitute(endpoint, ps)|] == '?'
  {
    var path := Substitute(endpoint, ps);
    RenderQueriesStartsWithQuestionMark(qs);
    path + RenderQueries(qs)
  }

  /** `WrappedApi.computeEndpoint(request)` with Java's null handling: a null
      parameter or query array counts as empty; a null endpoint template
      throws once a parameter is substituted into it, becomes the text
      "null" once a query is appended to it, and is returned as null
      otherwise. */
  function ComputedEndpoint(req: ApiRequest): (r: Result<Option<string>>)
    ensures r.Failure? <==> req.endpoint.None? && req.pathParameters.Some? && |req.pathParameters.value| > 0
    ensures r.Failure? ==> r.error == NullPointer
    ensures r == Success(None) <==> req.endpoint.None? && NoneOrEmpty(req.pathParameters) && NoneOrEmpty(req.requestQueries)
    ensures req.endpoint.Some? ==> r.Success? && r.value.Some? && Substitute(req.endpoint.value, req.pathParameters.GetOr([])) <= r.value.value
  {
    var ps := req.pathParameters.GetOr([]);
    var qs := req.requestQueries.GetOr([]);
    match req.endpoint
    case Some(e) => Success(Some(ComputeEndpoint(e, ps, qs)))
    case None =>
      if |ps| > 0 then Failure(NullPointer)
      else if |qs| == 0 then Success(None)
      else Success(Some("null" + RenderQueries(qs)))
  }

  predicate NoneOrEmpty<T>(o: Option<seq<T>>) {
    o.None? || |o.value| == 0
  }

  /** `ApiRequest.getComputedEndpoint()`: the same two loops, written as
      loops. */
  method GetComputedEndpoint(req: ApiRequest) returns (r: Result<Option<string>>)
    ensures r == ComputedEndpoint(req)
  {
    var computed := req.endpoint;
    if req.pathParameters.Some? && |req.pathParameters.value| > 0 {
      if computed.None? {
        return Failure(NullPointer);
      }
      var s := SubstituteInOrder(computed.value, req.pathParameters.value);
      computed := Some(s);
    }
    if req.requestQueries.Some? && |req.requestQueries.value| > 0 {
      var start := if computed.Some? then computed.value else "null";
      var s := AppendQueries(start, req.requestQueries.value);
      computed := Some(s);
    }
    return Success(computed);
  }

  /** The path-parameter loop of `getComputedEndpoint`. */
  method SubstituteInOrder(endpoint: string, ps: seq<PathParameter>) returns (s: string)
    ensures s == Substitute(endpoint, ps)
  {
    s := endpoint;
    var i := 0;
    while i < |ps|
      invariant 0 <= i <= |ps|
      invariant Substitute(s, ps[i..]) == Substitute(endpoint, ps)
    {
      assert ps[i..][1..] == ps[i + 1..];
      s := ReplaceAll(s, Token(ps[i].id), ps[i].replacement);
      i := i + 1;
    }
  }

  /** The query loop of `getComputedEndpoint`. */
  method AppendQueries(start: string, qs: seq<RequestQuery>) returns (s: string)
    ensures s == start + RenderQueries(qs)
  {
    s := start;
    var i := 0;
    while i < |qs|
      invariant 0 <= i <= |qs|
      invariant s == start + RenderQueries(qs[..i])
    {
      assert qs[..i + 1][..i] == qs[..i];
      assert RenderQueries(qs[..i + 1]) == RenderQueries(qs[..i]) + QuerySymbol(i) + Field(qs[i]);
      s := s + QuerySymbol(i) + Field(qs[i]);
      i := i + 1;
    }
    assert qs[..|qs|] == qs;
  }

  /** A non-empty query string starts with `?`. */
  lemma {:induction false} RenderQueriesStartsWithQuestionMark(qs: seq<RequestQuery>)
    ensures |qs| > 0 ==> |RenderQueries(qs)| > 0 && RenderQueries(qs)[0] == '?'
    decreases |qs|
  {
    if |qs| > 1 {
      RenderQueriesStartsWithQuestionMark(qs[..|qs| - 1]);
    }
  }

  /** The fields joined by `&`, written left to right: an independent
      description of the query string. */
  function JoinFields(qs: seq<RequestQuery>): string
    requires |qs| > 0
    decreases |qs|
  {
    if |qs| == 1 then Field(qs[0]) else Field(qs[0]) + "&" + JoinFields(qs[1..])
  }

  lemma {:induction false} JoinFieldsSnoc(qs: seq<RequestQuery>, q: RequestQuery)
    requires |qs| > 0
    ensures JoinFields(qs + [q]) == JoinFields(qs) + "&" + Field(q)
    decreases |qs|
  {
    if |qs| > 1 {
      assert (qs + [q])[1..] == qs[1..] + [q];
      JoinFieldsSnoc(qs[1..], q);
    } else {
      assert (qs + [q])[1..] == [q];
    }
  }

  /** The query loop renders `?` followed by the fields joined with `&`:
      exactly one `?`, before the first query, and `&` before the others. */
  lemma {:induction false} QueriesAreJoinedFields(qs: seq<RequestQuery>)
    ensures |qs| == 0 ==> RenderQueries(qs) == ""
    ensures |qs| > 0 ==> RenderQueries(qs) == "?" + JoinFields(qs)
    decreases |qs|
  {
    if |qs| > 1 {
      var init := qs[..|qs| - 1];
      QueriesAreJoinedFields(init);
      JoinFieldsSnoc(init, qs[|qs| - 1]);
      assert init + [qs[|qs| - 1]] == qs;
    } else if |qs| == 1 {
      assert qs[..0] == [];
    }
  }

  /** The worked example: `/x` with queries a=1, b=2 becomes `/x?a=1&b=2`. */
  lemma QueryExample()
    ensures ComputeEndpoint("/x", [], [RequestQuery("a", "1"), RequestQuery("b", "2")]) == "/x?a=1&b=2"
  {
    var qs := [RequestQuery("a", "1"), RequestQuery("b", "2")];
    assert qs[..1] == [RequestQuery("a", "1")];
    assert qs[..1][..0] == [];
    assert RenderQueries(qs[..1]) == "?a=1";
    assert RenderQueries(qs) == "?a=1&b=2";
  }

  // ---------------------------------------------------------------------
  // A reference parser: the query string is decodable when no name holds
  // `=` or `&` and no value holds `&`.

  /** Splits at every occurrence of `c`; always yields at least one piece. */
  function SplitOn(s: string, c: char): (r: seq<string>)
    ensures |r| > 0
    decreases |s|
  {
    if |s| == 0 then [""]
    else if s[0] == c then [""] + SplitOn(s[1..], c)
    else
      var rest := SplitOn(s[1..], c);
      [[s[0]] + rest[0]] + rest[1..]
  }

  /** Splits `name=value` at the first `=`. */
  function ParseField(f: string): RequestQuery
    decreases |f|
  {
    if |f| == 0 then RequestQuery("", "")
    else if f[0] == '=' then RequestQuery("", f[1..])
    else
      var q := ParseField(f[1..]);
      RequestQuery([f[0]] + q.name, q.value)
  }

  function ParseFields(fs: seq<string>): seq<RequestQuery>
    decreases |fs|
  {
    if |fs| == 0 then [] else [ParseField(fs[0])] + ParseFields(fs[1..])
  }

  /** Reads the query string back into its queries. */
  function ParseQueries(s: string): seq<RequestQuery> {
    if |s| == 0 || s[0] != '?' then [] else ParseFields(SplitOn(s[1..], '&'))
  }

  ghost predicate Decodable(qs: seq<RequestQuery>) {
    forall k :: 0 <= k < |qs| ==> '=' !in qs[k].name && '&' !in qs[k].name && '&' !in qs[k].value
  }

  lemma {:induction false} SplitOnFree(s: string, c: char)
    requires c !in s
    ensures SplitOn(s, c) == [s]
    decreases |s|
  {
    if |s| > 0 {
      SplitOnFree(s[1..], c);
      assert [s[0]] + s[1..] == s;
    }
  }

  lemma {:induction false} SplitOnJoin(x: string, c: char, y: string)
    requires c !in x
    ensures SplitOn(x + [c] + y, c) == [x] + SplitOn(y, c)
    decreases |x|
  {
    var s := x + [c] + y;
    if |x| == 0 {
      assert s == [c] + y;
      assert s[1..] == y;
    } else {
      assert s[1..] == x[1..] + [c] + y;
      SplitOnJoin(x[1..], c, y);
      assert [x[0]] + x[1..] == x;
    }
  }

  lemma {:induction false} ParseFieldOf(q: RequestQuery)
    requires '=' !in q.name
    ensures ParseField(Field(q)) == q
    decreases |q.name|
  {
    var f := Field(q);
    if |q.name| == 0 {
      assert f == "=" + q.value;
      assert f[1..] == q.value;
    } else {
      var q' := RequestQuery(q.name[1..], q.value);
      ParseFieldOf(q');
      assert f[1..] == Field(q');
      assert [q.name[0]] + q.name[1..] == q.name;
    }
  }

  lemma {:induction false} SplitJoinedFields(qs: seq<RequestQuery>)
    requires |qs| > 0 && Decodable(qs)
    ensures ParseFields(SplitOn(JoinFields(qs), '&')) == qs
    decreases |qs|
  {
    ParseFieldOf(qs[0]);
    assert '&' !in Field(qs[0]);
    if |qs| == 1 {
      SplitOnFree(Field(qs[0]), '&');
    } else {
      assert Decodable(qs[1..]);
      SplitJoinedFields(qs[1..]);
      assert JoinFields(qs) == Field(qs[0]) + ['&'] + JoinFields(qs[1..]);
      SplitOnJoin(Field(qs[0]), '&', JoinFields(qs[1..]));
      var pieces := [Field(qs[0])] + SplitOn(JoinFields(qs[1..]), '&');
      assert pieces[1..] == SplitOn(JoinFields(qs[1..]), '&');
      assert [qs[0]] + qs[1..] == qs;
    }
  }

  /** Round trip: the rendered query string parses back to the queries, in
      order, when names hold no `=` or `&` and values no `&` (nothing is
      percent-encoded, so other queries cannot be told apart). */
  lemma QueryRoundTrip(qs: seq<RequestQuery>)
    requires Decodable(qs)
    ensures ParseQueries(RenderQueries(qs)) == qs
  {
    QueriesAreJoinedFields(qs);
    if |qs| > 0 {
      SplitJoinedFields(qs);
      assert ("?" + JoinFields(qs))[1..] == JoinFields(qs);
    }
  }

  /** A request keeping the interface defaults has no parameters or
      queries, so its computed endpoint is its endpoint. */
  lemma DefaultsComputeToEndpoint(api: Api.WrappedApi, cls: Response.ResponseClass, url: Option<string>,
                                  endpoint: string, verb: RequestMethod)
    ensures ComputedEndpoint(WithDefaults(api, cls, url, endpoint, verb)) == Success(Some(endpoint))
  {
  }
}

=== FILE: headers.dfy ===
/** Header assembly: the ordered list of `builder.header(key, value)` calls.

    `ApiRequest.applyHeadersToHttpRequestBuilder` emits the given headers;
    `WrappedApi.applyHeadersToHttpRequestBuilder` emits them and then the
    API's default headers. Neither removes duplicate keys. Both send
    pipelines call the `ApiRequest` version, so the defaults are only
    emitted when the `WrappedApi` version is called directly.
 */
module Headers {
  import opened Outcomes
  import opened Values
  import opened Api
  import opened Request

  /** The headers an array contributes; a null array contributes none. */
  function Listed(hs: Option<seq<RequestHeader>>): (r: seq<RequestHeader>)
    ensures hs.None? ==> r == []
    ensures hs.Some? ==> r == hs.value
  {
    hs.GetOr([])
  }

  /** `ApiRequest.applyHeadersToHttpRequestBuilder(builder, headers)`,
      applied to the headers `builder` already holds. */
  method ApplyRequestHeaders(builder: seq<RequestHeader>, hs: Option<seq<RequestHeader>>)
    returns (r: seq<RequestHeader>)
    ensures |r| == |builder| + |Listed(hs)|
    ensures r[..|builder|] == builder
    ensures forall k :: 0 <= k < |Listed(hs)| ==> r[|builder| + k] == Listed(hs)[k]
  {
    r := builder;
    if hs.Some? {
      var i := 0;
      while i < |hs.value|
        invariant 0 <= i <= |hs.value|
        invariant r == builder + hs.value[..i]
      {
        r := r + [hs.value[i]];
        assert hs.value[..i + 1] == hs.value[..i] + [hs.value[i]];
        i := i + 1;
      }
      assert hs.value[..|hs.value|] == hs.value;
    }
  }

  /** `WrappedApi.applyHeadersToHttpRequestBuilder(request, builder, headers)`
      on an empty builder: the given headers in order, then the default
      headers of the request's API in order, duplicates kept. */
  function HeadersWithDefaults(req: ApiRequest, hs: Option<seq<RequestHeader>>): (r: seq<RequestHeader>)
    ensures |r| == |Listed(hs)| + |Listed(req.wrappedApi.defaultRequestHeaders)|
    ensures forall k :: 0 <= k < |Listed(hs)| ==> r[k] == Listed(hs)[k]
    ensures forall k :: 0 <= k < |Listed(req.wrappedApi.defaultRequestHeaders)| ==>
              r[|Listed(hs)| + k] == Listed(req.wrappedApi.defaultRequestHeaders)[k]
  {
    Listed(hs) + Listed(req.wrappedApi.defaultRequestHeaders)
  }

  /** A request header and a default header with the same key are both
      emitted, the request's first. */
  lemma DuplicateKeysKept(req: ApiRequest, key: string, a: string, b: string)
    requires req.wrappedApi.defaultRequestHeaders == Some([RequestHeader(key, b)])
    ensures HeadersWithDefaults(req, Some([RequestHeader(key, a)])) == [RequestHeader(key, a), RequestHeader(key, b)]
  {
  }
}

=== FILE: materialize.dfy ===
/** Response materialisation: turning a raw response into an object of the
    declared response class.

    1. A fresh instance is created reflectively; array classes are refused
       first, and a class without a usable no-argument constructor fails.
    2. If it is an `ApiResponse`, its status code and API back-reference are
       set.
    3. If it is a `DeserializableApiResponse`, its `deserialize(request,
       response)` result replaces it.

    `WrappedApi.createInstanceOfResponseClass` / `handleResponse` and their
    `ApiRequest` counterparts have identical bodies and are modelled once.
    The deserialiser is an instance method, so it is a parameter here; it
    sees the instance with status and API already set. Its result may be
    null (`None`), and so may the handled response.
 */
module Materialize {
  import opened Outcomes
  import opened Values
  import opened Api
  import opened Response
  import opened Request

  /** `deserialize(apiRequest, httpResponse)` of the instance it is given:
      an object, null (`None`), or an exception. */
  type Deserializer = (ApiRequest, RawResponse, Instance) -> Result<Option<Instance>>

  /** `createInstanceOfResponseClass()`. */
  function CreateInstance(cls: ResponseClass): (r: Result<Instance>)
    ensures cls.isArray ==> r == Failure(ArrayInstance)
    ensures !cls.isArray && !cls.hasNoArgConstructor ==> r == Failure(Reflection)
    ensures r.Success? <==> !cls.isArray && cls.hasNoArgConstructor
    ensures r.Success? ==> r.value.cls == cls
    ensures r.Success? ==> r.value.envelope.httpStatusCode == -1 && r.value.envelope.wrappedApi == None
  {
    if cls.isArray then Failure(ArrayInstance)
    else if !cls.hasNoArgConstructor then Failure(Reflection)
    else Success(Fresh(cls))
  }

  /** Step 2: the status and API back-reference written into an
      `ApiResponse`; any other object is left as it is. */
  function Bind(inst: Instance, status: int, api: WrappedApi): (r: Instance)
    ensures r.cls == inst.cls && r.content == inst.content
    ensures inst.cls.isApiResponse ==> r.envelope.httpStatusCode == status && r.envelope.wrappedApi == Some(api)
    ensures !inst.cls.isApiResponse ==> r == inst
  {
    if inst.cls.isApiResponse then
      inst.(envelope := inst.envelope.SetHttpStatusCode(status).SetWrappedApi(api))
    else inst
  }

  /** `handleResponse(httpResponse)`. */
  function HandleResponse(req: ApiRequest, resp: RawResponse, deserialize: Deserializer): (r: Result<Option<Instance>>)
    ensures CreateInstance(req.responseClass).Failure? ==> r == Failure(CreateInstance(req.responseClass).error)
    ensures !req.responseClass.isArray && req.responseClass.hasNoArgConstructor && req.responseClass.isDeserializable ==>
              r == deserialize(req, resp, Bind(Fresh(req.responseClass), resp.statusCode, req.wrappedApi))
    ensures !req.responseClass.isArray && req.responseClass.hasNoArgConstructor && !req.responseClass.isDeserializable ==>
              r == Success(Some(Bind(Fresh(req.responseClass), resp.statusCode, req.wrappedApi)))
    ensures !req.responseClass.isDeserializable && r.Success? ==>
              r.value.Some? && r.value.value.cls == req.responseClass &&
              (req.responseClass.isApiResponse ==>
                 r.value.value.envelope == ApiResponse(resp.statusCode, Some(req.wrappedApi)))
  {
    var created :- CreateInstance(req.responseClass);
    var bound := Bind(created, resp.statusCode, req.wrappedApi);
    if bound.cls.isDeserializable then deserialize(req, resp, bound) else Success(Some(bound))
  }

  /** The deserialiser of an instance that is an `ApiResponse` always sees
      the response's status code and the request's API: the envelope is
      written BEFORE deserialisation. */
  lemma DeserializerSeesBoundEnvelope(req: ApiRequest, resp: RawResponse, deserialize: Deserializer)
    requires !req.responseClass.isArray && req.responseClass.hasNoArgConstructor
    requires req.responseClass.Valid() && req.responseClass.isDeserializable
    ensures exists seen: Instance ::
              HandleResponse(req, resp, deserialize) == deserialize(req, resp, seen) &&
              seen.envelope == ApiResponse(resp.statusCode, Some(req.wrappedApi))
  {
    var seen := Bind(Fresh(req.responseClass), resp.statusCode, req.wrappedApi);
    assert seen.envelope == ApiResponse(resp.statusCode, Some(req.wrappedApi));
  }

  /** `GsonApiResponse.deserialize`: the body must be text, otherwise an
      IllegalArgumentException; the text is decoded by `fromJson` into the
      instance's own class, which yields null for empty or `null` JSON
      text. A null body fails earlier, with a
      NullPointerException, when the exception message asks for its
      class. */
  function GsonDeserialize(fromJson: (string, ResponseClass) -> Result<Option<Instance>>,
                           req: ApiRequest, resp: RawResponse, inst: Instance): (r: Result<Option<Instance>>)
    ensures resp.body.Opaque? ==> r == Failure(BodyNotString)
    ensures resp.body.NullBody? ==> r == Failure(NullPointer)
    ensures resp.body.Text? ==> r == fromJson(resp.body.text, inst.cls)
  {
    match resp.body
    case Text(t) => fromJson(t, inst.cls)
    case Opaque(_) => Failure(BodyNotString)
    case NullBody => Failure(NullPointer)
  }

  /** With the Gson deserialiser the status written in step 2 is discarded:
      the response is exactly the object `fromJson` decodes from the body,
      whatever status and API the bound instance carried. */
  lemma GsonResultIgnoresBoundEnvelope(fromJson: (string, ResponseClass) -> Result<Option<Instance>>,
                                       req: ApiRequest, resp: RawResponse)
    requires !req.responseClass.isArray && req.responseClass.hasNoArgConstructor
    requires req.responseClass.isDeserializable && resp.body.Text?
    ensures HandleResponse(req, resp, (q, p, i) => GsonDeserialize(fromJson, q, p, i)) ==
              fromJson(resp.body.text, req.responseClass)
  {
  }

  /** With the Gson deserialiser a null body (for example from
      `BodyHandlers.discarding()`) fails with a NullPointerException. */
  lemma GsonNullBody(fromJson: (string, ResponseClass) -> Result<Option<Instance>>, req: ApiRequest, resp: RawResponse)
    requires !req.responseClass.isArray && req.responseClass.hasNoArgConstructor
    requires req.responseClass.isDeserializable && resp.body.NullBody?
    ensures HandleResponse(req, resp, (q, p, i) => GsonDeserialize(fromJson, q, p, i)) == Failure(NullPointer)
  {
  }

  /** Handling is creation, then binding, then deserialisation: with a
      deserialiser that hands back the instance it is given, every class,
      deserialisable or not, is handled as the outcome of
      `createInstanceOfResponseClass` with status and API bound. */
  lemma HandleIsCreateThenBind(req: ApiRequest, resp: RawResponse)
    ensures var r := HandleResponse(req, resp, (q, p, i) => Success(Some(i)));
            match CreateInstance(req.responseClass)
            case Failure(e) => r == Failure(e)
            case Success(inst) => r == Success(Some(Bind(inst, resp.statusCode, req.wrappedApi)))
  {
  }
}

=== FILE: outcomes.dfy ===
/** Failure-carrying datatypes shared by every part of the model.

    Java's `null` is modelled by `Option`, a thrown exception by the `Error`
    it carries, and the three ways a Java call can end (return a value,
    return `null`, throw) by `Outcome`.
 */
module Outcomes {

  /** The checked failures of `HttpClient.send`. */
  datatype TransportFault = IOFailure | Interrupted

  /** Every exception the modelled code raises or lets through. */
  datatype Error =
    | InvalidUri(uri: string)              // RuntimeException("Invalid URI ...") of the new pipeline
    | IllegalTimeout                       // IllegalArgumentException of `HttpRequest.Builder.timeout`
    | NullPointer                          // an unset @NotNull accessor dereferenced
    | ArrayInstance                        // RuntimeException("Cannot create instance of array")
    | Reflection                           // NoSuchMethod / Instantiation / InvocationTarget / IllegalAccess
    | Transport(fault: TransportFault)     // thrown by the HTTP client
    | Deserialization(message: string)     // whatever a deserialiser throws
    | BodyNotString                        // IllegalArgumentException of GsonApiResponse.deserialize
    | UriSyntax(uri: string)               // URISyntaxException of `new URI(...)`
    | UriRejected(uri: string)             // IllegalArgumentException of `HttpRequest.Builder.uri`
    | MissingPathParameters(url: string)   // MissingPathParametersException
    | IndexOutOfBounds                     // StringIndexOutOfBoundsException of `substring`
    | ClassCast                            // ClassCastException of a `(String)` cast
    | Http(code: int, cause: Error)        // HttpException wrapping an HttpError

  /** A nullable Java reference. */
  datatype Option<+T> = None | Some(value: T) {

    /** The value, or `default` when the reference is null. */
    function GetOr(default: T): T {
      match this
      case Some(v) => v
      case None => default
    }
  }

  /** A call that either yields a value or throws. */
  datatype Result<+T> = Success(value: T) | Failure(error: Error) {

    predicate IsFailure() {
      Failure?
    }

    function PropagateFailure<U>(): Result<U>
      requires Failure?
    {
      Failure(error)
    }

    function Extract(): T
      requires Success?
    {
      value
    }
  }

  /** How a Java method whose result may be null ends. */
  datatype Outcome<+T> = Returned(value: T) | ReturnedNull | Thrown(error: Error)

  /** Returning a nullable reference: an object is returned as it is, null
      as null; nothing is thrown. */
  function Returning<T>(o: Option<T>): (r: Outcome<T>)
    ensures !r.Thrown?
    ensures r.Returned? <==> o.Some?
    ensures r.Returned? ==> r.value == o.value
  {
    match o
    case Some(v) => Returned(v)
    case None => ReturnedNull
  }
}

=== FILE: request.dfy ===
/** A request descriptor (`ApiRequest`): what its accessors report. Java's
    nullable results are `Option`s; `getEndpoint` and `getRequestMethod` are
    annotated non-null but a built request can still return null from them,
    so they are `Option`s too. */
module Request {
  import opened Outcomes
  import opened Values
  import opened Api
  import opened Response

  datatype ApiRequest = ApiRequest(
    wrappedApi: WrappedApi,
    responseClass: ResponseClass,
    url: Option<string>,                              // null: use the API's default URL
    endpoint: Option<string>,
    requestMethod: Option<RequestMethod>,
    pathParameters: Option<seq<PathParameter>>,
    requestQueries: Option<seq<RequestQuery>>,
    requestHeaders: Option<seq<RequestHeader>>,
    bodyPublisher: BodyPublisher,
    bodyHandler: BodyHandler)

  /** A request that implements only the abstract accessors and keeps every
      interface default: no path parameters, queries or headers (null), no
      body, and the body read as a string. */
  function WithDefaults(api: WrappedApi, cls: ResponseClass, url: Option<string>,
                        endpoint: string, verb: RequestMethod): (r: ApiRequest)
    ensures r.wrappedApi == api && r.responseClass == cls && r.url == url
    ensures r.endpoint == Some(endpoint) && r.requestMethod == Some(verb)
    ensures r.pathParameters == None && r.requestQueries == None && r.requestHeaders == None
    ensures r.bodyPublisher == NoBody && r.bodyHandler == OfString
  {
    ApiRequest(api, cls, url, Some(endpoint), Some(verb), None, None, None, NoBody, OfString)
  }
}

=== FILE: response.dfy ===
/** Response values: the `ApiResponse` envelope, the declared response class
    with the capabilities runtime type checks detect, instances of it, and
    the raw response the transport hands over. */
module Response {
  import opened Outcomes
  import opened Values
  import opened Api

  /** The fields every `ApiResponse` subclass inherits. A fresh instance has
      status -1 ("unset") and no back-reference to its API. */
  datatype ApiResponse = ApiResponse(httpStatusCode: int, wrappedApi: Option<WrappedApi>) {

    /** `setHttpStatusCode(code)`. */
    function SetHttpStatusCode(code: int): (r: ApiResponse)
      ensures r.httpStatusCode == code
      ensures r.wrappedApi == wrappedApi
    {
      this.(httpStatusCode := code)
    }

    /** `setWrappedApi(api)`. */
    function SetWrappedApi(api: WrappedApi): (r: ApiResponse)
      ensures r.wrappedApi == Some(api)
      ensures r.httpStatusCode == httpStatusCode
    {
      this.(wrappedApi := Some(api))
    }
  }

  /** The field initialisers of `ApiResponse`. */
  function FreshApiResponse(): (r: ApiResponse)
    ensures r.httpStatusCode == -1
    ensures r.wrappedApi == None
  {
    ApiResponse(-1, None)
  }

  /** The two setters write disjoint fields, so their order is irrelevant,
      and a later write of the same field overwrites an earlier one. */
  lemma SettersIndependent(e: ApiResponse, code: int, code': int, api: WrappedApi)
    ensures e.SetHttpStatusCode(code).SetWrappedApi(api) == e.SetWrappedApi(api).SetHttpStatusCode(code)
    ensures e.SetHttpStatusCode(code).SetHttpStatusCode(code') == e.SetHttpStatusCode(code')
    ensures e.SetHttpStatusCode(e.httpStatusCode) == e
  {
  }

  /** A declared response class (`Class<T>`), reduced to what reflection and
      the `instanceof` checks observe. */
  datatype ResponseClass = ResponseClass(
    name: string,
    isArray: bool,                // Class.isArray()
    hasNoArgConstructor: bool,    // getDeclaredConstructor().newInstance() succeeds
    isApiResponse: bool,          // instances are `instanceof ApiResponse`
    isDeserializable: bool)       // instances are `instanceof DeserializableApiResponse`
  {
    /** `DeserializableApiResponse` extends `ApiResponse`, so every
        deserialisable class is also an `ApiResponse`. The datatype admits
        the other combination; the lemmas that need the subclass relation
        ask for it through this predicate. */
    predicate Valid() {
      isDeserializable ==> isApiResponse
    }
  }

  /** An object of a response class. `envelope` holds the inherited
      `ApiResponse` fields and is only read or written when the class is an
      `ApiResponse`; `content` stands for the subclass's own fields. */
  datatype Instance = Instance(cls: ResponseClass, envelope: ApiResponse, content: string)

  /** What the no-argument constructor produces. */
  function Fresh(cls: ResponseClass): (r: Instance)
    ensures r.cls == cls
    ensures r.envelope.httpStatusCode == -1 && r.envelope.wrappedApi == None
  {
    Instance(cls, FreshApiResponse(), "")
  }

  /** A response as the transport returns it. */
  datatype RawResponse = RawResponse(statusCode: int, body: Body)
}

=== FILE: send.dfy ===
/** The two synchronous send pipelines and the asynchronous wrapper.

    Both pipelines first build the request URL (the request's URL, or the
    API's default URL when it is null, followed by the computed endpoint),
    reject an unparsable URI, assemble the headers and the method, and only
    then call `onApiRequest` and the transport.

    - `WrappedApi.send` routes a transport or handling failure through
      `onException` exactly once and then rethrows it or returns null,
      according to `rethrowExceptions()`; on success it calls
      `onAfterApiRequest` and `onAfterHandledApiRequest` and returns what
      `handleResponse` produced, which may itself be null.
    - `ApiRequest.send`, which built requests run, calls `onApiRequest`
      and nothing else: failures propagate unrouted.

    The URI parser, the transport and the deserialiser are parameters
    (`Environment`); a run is the sequence of hook and transport events it
    produces together with how the call ends.
 */
module Send {
  import opened Outcomes
  import opened Values
  import opened Api
  import opened Response
  import opened Request
  import opened Endpoint
  import opened Headers
  import opened Materialize

  /** What `new URI(s)` followed by `HttpRequest.Builder.uri` makes of `s`:
      accepted, a URISyntaxException, or an IllegalArgumentException. */
  datatype UriCheck = Accepted | SyntaxError | Rejected

  /** The request handed to the transport. */
  datatype WireRequest = WireRequest(
    uri: string,
    verb: string,
    body: BodyPublisher,
    headers: seq<RequestHeader>,
    timeoutSeconds: Option<int>,
    handler: BodyHandler)

  datatype Environment = Environment(
    uri: string -> UriCheck,
    transport: WireRequest -> Result<RawResponse>,
    deserialize: Deserializer)

  /** A hook call or a transport call, in the order they happen. */
  datatype Event =
    | OnApiRequest
    | TransportCall(request: WireRequest)
    | OnAfterApiRequest
    | OnException(error: Error)
    | OnAfterHandledApiRequest(response: Option<Instance>)

  datatype Run = Run(trace: seq<Event>, result: Outcome<Instance>)

  /** The base URL: the request's own URL, or the API default when null;
      a null default is concatenated as the text "null". */
  function BaseUrl(req: ApiRequest): (r: string)
    ensures req.url.Some? ==> r == req.url.value
    ensures req.url.None? && req.wrappedApi.defaultUrl.Some? ==> r == req.wrappedApi.defaultUrl.value
    ensures req.url.None? && req.wrappedApi.defaultUrl.None? ==> r == "null"
  {
    req.url.GetOr(req.wrappedApi.defaultUrl.GetOr("null"))
  }

  /** `url + getComputedEndpoint()`; Java writes a null string as "null". */
  function RequestUrl(req: ApiRequest): (r: Result<string>)
    ensures r.Failure? <==> ComputedEndpoint(req).Failure?
    ensures r.Failure? ==> r.error == NullPointer
    ensures r.Success? ==> BaseUrl(req) <= r.value
    ensures r.Success? ==> r.value[|BaseUrl(req)|..] == ComputedEndpoint(req).value.GetOr("null")
  {
    var endpoint :- ComputedEndpoint(req);
    var r := BaseUrl(req) + endpoint.GetOr("null");
    assert r[|BaseUrl(req)|..] == endpoint.GetOr("null");
    Success(r)
  }

  /** `HttpRequest.Builder.timeout` accepts only a strictly positive
      duration; no timeout at all is also fine. */
  predicate TimeoutAccepted(timeout: Option<int>) {
    timeout.None? || timeout.value > 0
  }

  /** Everything before the first hook: URL, timeout, URI check, headers,
      method. `timeout` is the API's timeout in `WrappedApi.send`, and
      absent in `ApiRequest.send`, which sets none. */
  function Prepare(req: ApiRequest, env: Environment, timeout: Option<int>): (r: Result<WireRequest>)
    ensures RequestUrl(req).Failure? ==> r == Failure(NullPointer)
    ensures RequestUrl(req).Success? && !TimeoutAccepted(timeout) ==> r == Failure(IllegalTimeout)
    ensures RequestUrl(req).Success? && TimeoutAccepted(timeout) && env.uri(RequestUrl(req).value) != Accepted ==>
              r == Failure(InvalidUri(RequestUrl(req).value))
    ensures RequestUrl(req).Success? && TimeoutAccepted(timeout) && env.uri(RequestUrl(req).value) == Accepted &&
            req.requestMethod.None? ==>
              r == Failure(NullPointer)
    ensures r.Success? ==>
              && r.value.uri == RequestUrl(req).value
              && TimeoutAccepted(timeout)
              && env.uri(r.value.uri) == Accepted
              && req.requestMethod.Some? && r.value.verb == req.requestMethod.value.name
              && r.value.headers == Listed(req.requestHeaders)
              && r.value.body == req.bodyPublisher && r.value.handler == req.bodyHandler
              && r.value.timeoutSeconds == timeout
  {
    var url :- RequestUrl(req);
    if !TimeoutAccepted(timeout) then Failure(IllegalTimeout)
    else if env.uri(url) != Accepted then Failure(InvalidUri(url))
    else match req.requestMethod
      case None => Failure(NullPointer)
      case Some(m) =>
        Success(WireRequest(url, m.name, req.bodyPublisher, Listed(req.requestHeaders), timeout, req.bodyHandler))
  }

  /** What `WrappedApi.send` does with a failure after `onException`. */
  function Routed(api: WrappedApi, e: Error): (r: Outcome<Instance>)
    ensures api.rethrowExceptions ==> r == Thrown(e)
    ensures !api.rethrowExceptions ==> r == ReturnedNull
  {
    if api.rethrowExceptions then Thrown(e) else ReturnedNull
  }

  function ExceptionCount(trace: seq<Event>): nat
    decreases |trace|
  {
    if |trace| == 0 then 0
    else (if trace[0].OnException? then 1 else 0) + ExceptionCount(trace[1..])
  }

  lemma {:induction false} ExceptionCountSnoc(trace: seq<Event>, e: Event)
    ensures ExceptionCount(trace + [e]) == ExceptionCount(trace) + (if e.OnException? then 1 else 0)
    decreases |trace|
  {
    if |trace| == 0 {
      assert trace + [e] == [e];
      assert [e][1..] == [];
    } else {
      assert (trace + [e])[1..] == trace[1..] + [e];
      ExceptionCountSnoc(trace[1..], e);
    }
  }

  /** The two events every pipeline emits once the request is prepared. */
  function Dispatched(wire: WireRequest): (r: seq<Event>)
    ensures |r| == 2 && r[0] == OnApiRequest && r[1] == TransportCall(wire)
    ensures ExceptionCount(r) == 0
  {
    var r := [OnApiRequest, TransportCall(wire)];
    assert r[1..] == [TransportCall(wire)] && r[1..][1..] == [];
    assert ExceptionCount(r[1..]) == ExceptionCount(r[1..][1..]);
    r
  }

  /** What `WrappedApi.send` does once `wire` is prepared: the hooks, the
      transport call, `handleResponse`, and the routing of a failure. */
  function Deliver(req: ApiRequest, env: Environment, wire: WireRequest): (r: Run)
    ensures |r.trace| >= 3 && r.trace[..2] == Dispatched(wire)
    ensures ExceptionCount(r.trace) <= 1
    // The run ends in `onAfterHandledApiRequest`, whose argument is what
    // the call returns, exactly when no exception was routed.
    ensures ExceptionCount(r.trace) == 0 <==> r.trace[|r.trace| - 1].OnAfterHandledApiRequest?
    ensures ExceptionCount(r.trace) == 0 ==>
              |r.trace| == 4 && r.trace[2] == OnAfterApiRequest &&
              r.result == Returning(r.trace[3].response)
    ensures r.result.Returned? ==> ExceptionCount(r.trace) == 0
    // With rethrowing on, null is returned only when handling produced it.
    ensures r.result.ReturnedNull? && req.wrappedApi.rethrowExceptions ==>
              r.trace[|r.trace| - 1] == OnAfterHandledApiRequest(None)
    ensures ExceptionCount(r.trace) == 1 ==>
              r.trace[|r.trace| - 1].OnException? &&
              r.result == Routed(req.wrappedApi, r.trace[|r.trace| - 1].error)
    // A transport failure is routed at once: `onAfterApiRequest` never runs,
    // whatever the rethrow policy.
    ensures env.transport(wire).Failure? ==>
              r == Run(Dispatched(wire) + [OnException(env.transport(wire).error)],
                       Routed(req.wrappedApi, env.transport(wire).error))
    // A handling failure is routed after `onAfterApiRequest`.
    ensures env.transport(wire).Success? && HandleResponse(req, env.transport(wire).value, env.deserialize).Failure? ==>
              var e := HandleResponse(req, env.transport(wire).value, env.deserialize).error;
              r == Run(Dispatched(wire) + [OnAfterApiRequest, OnException(e)], Routed(req.wrappedApi, e))
    // A successful handling, object or null, is what the call returns and
    // what `onAfterHandledApiRequest` sees.
    ensures env.transport(wire).Success? && HandleResponse(req, env.transport(wire).value, env.deserialize).Success? ==>
              var v := HandleResponse(req, env.transport(wire).value, env.deserialize).value;
              r == Run(Dispatched(wire) + [OnAfterApiRequest, OnAfterHandledApiRequest(v)], Returning(v))
  {
    var sent := Dispatched(wire);
    match env.transport(wire)
    case Failure(e) =>
      ExceptionCountSnoc(sent, OnException(e));
      Run(sent + [OnException(e)], Routed(req.wrappedApi, e))
    case Success(resp) =>
      var received := sent + [OnAfterApiRequest];
      ExceptionCountSnoc(sent, OnAfterApiRequest);
      match HandleResponse(req, resp, env.deserialize)
      case Failure(e) =>
        ExceptionCountSnoc(received, OnException(e));
        assert received + [OnException(e)] == sent + [OnAfterApiRequest, OnException(e)];
        Run(sent + [OnAfterApiRequest, OnException(e)], Routed(req.wrappedApi, e))
      case Success(v) =>
        ExceptionCountSnoc(received, OnAfterHandledApiRequest(v));
        assert received + [OnAfterHandledApiRequest(v)] == sent + [OnAfterApiRequest, OnAfterHandledApiRequest(v)];
        Run(sent + [OnAfterApiRequest, OnAfterHandledApiRequest(v)], Returning(v))
  }

  /** `self.send(request)`: the timeout comes from `self`, the hooks and
      the rethrow policy from the request's own API. */
  function WrappedSend(self: WrappedApi, req: ApiRequest, env: Environment): (r: Run)
    ensures Prepare(req, env, Some(self.timeoutSeconds)).Failure? ==>
              r == Run([], Thrown(Prepare(req, env, Some(self.timeoutSeconds)).error))
    ensures Prepare(req, env, Some(self.timeoutSeconds)).Success? ==>
              |r.trace| >= 3 && r.trace[..2] == Dispatched(Prepare(req, env, Some(self.timeoutSeconds)).value)
    ensures ExceptionCount(r.trace) <= 1
    ensures r.trace != [] ==>
              (ExceptionCount(r.trace) == 0 <==> r.trace[|r.trace| - 1].OnAfterHandledApiRequest?)
    ensures r.trace != [] && ExceptionCount(r.trace) == 0 ==>
              |r.trace| == 4 && r.trace[2] == OnAfterApiRequest &&
              r.result == Returning(r.trace[3].response)
    ensures r.result.Returned? ==> r.trace != [] && ExceptionCount(r.trace) == 0
    ensures r.result.ReturnedNull? && req.wrappedApi.rethrowExceptions ==>
              r.trace != [] && r.trace[|r.trace| - 1] == OnAfterHandledApiRequest(None)
    ensures ExceptionCount(r.trace) == 1 ==>
              r.trace[|r.trace| - 1].OnException? &&
              r.result == Routed(req.wrappedApi, r.trace[|r.trace| - 1].error)
    ensures var p := Prepare(req, env, Some(self.timeoutSeconds));
            p.Success? && env.transport(p.value).Failure? ==>
              r == Run(Dispatched(p.value) + [OnException(env.transport(p.value).error)],
                       Routed(req.wrappedApi, env.transport(p.value).error))
    ensures var p := Prepare(req, env, Some(self.timeoutSeconds));
            p.Success? && env.transport(p.value).Success? &&
            HandleResponse(req, env.transport(p.value).value, env.deserialize).Failure? ==>
              var e := HandleResponse(req, env.transport(p.value).value, env.deserialize).error;
              r == Run(Dispatched(p.value) + [OnAfterApiRequest, OnException(e)], Routed(req.wrappedApi, e))
    ensures var p := Prepare(req, env, Some(self.timeoutSeconds));
            p.Success? && env.transport(p.value).Success? &&
            HandleResponse(req, env.transport(p.value).value, env.deserialize).Success? ==>
              var v := HandleResponse(req, env.transport(p.value).value, env.deserialize).value;
              r == Run(Dispatched(p.value) + [OnAfterApiRequest, OnAfterHandledApiRequest(v)], Returning(v))
  {
    match Prepare(req, env, Some(self.timeoutSeconds))
    case Failure(e) => Run([], Thrown(e))
    case Success(wire) => Deliver(req, env, wire)
  }

  /** `request.send()`: no timeout, no exception routing, no after-hooks. */
  function ApiSend(req: ApiRequest, env: Environment): (r: Run)
    ensures Prepare(req, env, None).Failure? ==> r == Run([], Thrown(Prepare(req, env, None).error))
    ensures Prepare(req, env, None).Success? ==> r.trace == Dispatched(Prepare(req, env, None).value)
    ensures Prepare(req, env, None).Success? && env.transport(Prepare(req, env, None).value).Failure? ==>
              r.result == Thrown(env.transport(Prepare(req, env, None).value).error)
    ensures var p := Prepare(req, env, None);
            p.Success? && env.transport(p.value).Success? ==>
              r.result == (match HandleResponse(req, env.transport(p.value).value, env.deserialize)
                           case Success(v) => Returning(v)
                           case Failure(e) => Thrown(e))
    ensures ExceptionCount(r.trace) == 0
    // Nothing is routed, so null is returned exactly when handling yields it.
    ensures var p := Prepare(req, env, None);
            r.result.ReturnedNull? <==>
              p.Success? && env.transport(p.value).Success? &&
              HandleResponse(req, env.transport(p.value).value, env.deserialize) == Success(None)
  {
    match Prepare(req, env, None)
    case Failure(e) => Run([], Thrown(e))
    case Success(wire) =>
      var sent := Dispatched(wire);
      match env.transport(wire)
      case Failure(e) => Run(sent, Thrown(e))
      case Success(resp) =>
        match HandleResponse(req, resp, env.deserialize)
        case Failure(e) => Run(sent, Thrown(e))
        case Success(v) => Run(sent, Returning(v))
  }

  /** The future `sendAsync()` returns, once the worker has finished. */
  datatype Future = Completed(value: Option<Instance>) | CompletedExceptionally(error: Error)

  /** `request.sendAsync()`: completes with the value `send()` returns or
      exceptionally with what it throws, never both. */
  function SendAsync(req: ApiRequest, env: Environment): (f: Future)
    ensures f.Completed? <==> !ApiSend(req, env).result.Thrown?
    ensures f.CompletedExceptionally? <==> ApiSend(req, env).result.Thrown?
    ensures f.CompletedExceptionally? ==> f.error == ApiSend(req, env).result.error
    ensures f.Completed? ==> Returning(f.value) == ApiSend(req, env).result
  {
    match ApiSend(req, env).result
    case Returned(v) => Completed(Some(v))
    case ReturnedNull => Completed(None)
    case Thrown(e) => CompletedExceptionally(e)
  }

  // ---------------------------------------------------------------------
  // The hook protocol of `WrappedApi.send` as an automaton.

  datatype Phase = Idle | Requested | Sent | Received | Handled | Failed

  /** The transitions the documented hook order allows. */
  function Step(ph: Phase, e: Event): Option<Phase> {
    match (ph, e)
    case (Idle, OnApiRequest) => Some(Requested)
    case (Requested, TransportCall(_)) => Some(Sent)
    case (Sent, OnException(_)) => Some(Failed)
    case (Sent, OnAfterApiRequest) => Some(Received)
    case (Received, OnException(_)) => Some(Failed)
    case (Received, OnAfterHandledApiRequest(_)) => Some(Handled)
    case _ => None
  }

  function Replay(ph: Phase, trace: seq<Event>): Option<Phase>
    decreases |trace|
  {
    if |trace| == 0 then Some(ph)
    else match Step(ph, trace[0])
      case None => None
      case Some(next) => Replay(next, trace[1..])
  }

  lemma {:induction false} ReplaySnoc(ph: Phase, trace: seq<Event>, e: Event)
    ensures Replay(ph, trace + [e]) ==
              (match Replay(ph, trace) case None => None case Some(q) => Step(q, e))
    decreases |trace|
  {
    if |trace| == 0 {
      assert trace + [e] == [e];
      assert [e][1..] == [];
    } else {
      assert (trace + [e])[1..] == trace[1..] + [e];
      match Step(ph, trace[0])
      case None =>
      case Some(next) => ReplaySnoc(next, trace[1..], e);
    }
  }

  lemma DispatchedReachesSent(wire: WireRequest)
    ensures Replay(Idle, Dispatched(wire)) == Some(Sent)
  {
    var d := Dispatched(wire);
    assert d[1..] == [TransportCall(wire)] && d[1..][1..] == [];
    assert Replay(Requested, d[1..]) == Replay(Sent, d[1..][1..]);
  }

  /** The transport answered and `handleResponse` returned, an object or
      null, without throwing. */
  predicate HandlingSucceeds(req: ApiRequest, env: Environment, wire: WireRequest) {
    env.transport(wire).Success? && HandleResponse(req, env.transport(wire).value, env.deserialize).Success?
  }

  /** Once the request is prepared, the run ends in `Handled` exactly when
      the transport and `handleResponse` both succeed, and in `Failed`
      otherwise. */
  lemma DeliverFollowsProtocol(req: ApiRequest, env: Environment, wire: WireRequest)
    ensures Replay(Idle, Deliver(req, env, wire).trace) ==
              if HandlingSucceeds(req, env, wire) then Some(Handled) else Some(Failed)
  {
    var r := Deliver(req, env, wire);
    var sent := Dispatched(wire);
    DispatchedReachesSent(wire);
    match env.transport(wire)
    case Failure(e) =>
      ReplaySnoc(Idle, sent, OnException(e));
    case Success(resp) =>
      var received := sent + [OnAfterApiRequest];
      ReplaySnoc(Idle, sent, OnAfterApiRequest);
      match HandleResponse(req, resp, env.deserialize)
      case Failure(e) =>
        assert r.trace == received + [OnException(e)];
        ReplaySnoc(Idle, received, OnException(e));
      case Success(v) =>
        assert r.trace == received + [OnAfterHandledApiRequest(v)];
        ReplaySnoc(Idle, received, OnAfterHandledApiRequest(v));
  }

  /** Every run of `WrappedApi.send` is a path of the automaton, and the
      phase it ends in tells how the call went: no event at all for a
      failure before the hooks, `Handled` exactly when the transport and
      `handleResponse` succeeded (the call returns their object or null),
      `Failed` exactly for a routed failure (rethrown or null). */
  lemma WrappedSendFollowsProtocol(self: WrappedApi, req: ApiRequest, env: Environment)
    ensures Replay(Idle, WrappedSend(self, req, env).trace).Some?
    ensures Replay(Idle, WrappedSend(self, req, env).trace) == Some(Idle) <==>
              WrappedSend(self, req, env).trace == []
    ensures var p := Prepare(req, env, Some(self.timeoutSeconds));
            Replay(Idle, WrappedSend(self, req, env).trace) == Some(Handled) <==>
              p.Success? && HandlingSucceeds(req, env, p.value)
    ensures Replay(Idle, WrappedSend(self, req, env).trace) == Some(Failed) <==>
              ExceptionCount(WrappedSend(self, req, env).trace) == 1
    ensures WrappedSend(self, req, env).result.Returned? ==>
              Replay(Idle, WrappedSend(self, req, env).trace) == Some(Handled)
  {
    var p := Prepare(req, env, Some(self.timeoutSeconds));
    if p.Success? {
      DeliverFollowsProtocol(req, env, p.value);
    }
  }

  /** A run of `ApiRequest.send` stops in the automaton right after the
      transport call: no after-hook and no `onException` ever runs. */
  lemma ApiSendStopsAfterTransport(req: ApiRequest, env: Environment)
    ensures Replay(Idle, ApiSend(req, env).trace) == Some(Idle) ||
            Replay(Idle, ApiSend(req, env).trace) == Some(Sent)
  {
    var p := Prepare(req, env, None);
    if p.Success? {
      DispatchedReachesSent(p.value);
    }
  }

  /** With rethrowing on, a positive timeout and a transport that ignores
      the timeout, the two pipelines end the same way: they differ only in
      the hooks they call. */
  lemma PipelinesAgreeWhenRethrowing(self: WrappedApi, req: ApiRequest, env: Environment)
    requires req.wrappedApi.rethrowExceptions && self.timeoutSeconds > 0
    requires forall w: WireRequest :: env.transport(w) == env.transport(w.(timeoutSeconds := None))
    ensures WrappedSend(self, req, env).result == ApiSend(req, env).result
  {
    var p := Prepare(req, env, Some(self.timeoutSeconds));
    if p.Success? {
      assert p.value.(timeoutSeconds := None) == Prepare(req, env, None).value;
    }
  }

  /** With rethrowing off, a transport failure is reported to `onException`
      once and the call returns null. */
  lemma SuppressedTransportFailure(self: WrappedApi, req: ApiRequest, env: Environment)
    requires !req.wrappedApi.rethrowExceptions
    requires Prepare(req, env, Some(self.timeoutSeconds)).Success?
    requires env.transport(Prepare(req, env, Some(self.timeoutSeconds)).value).Failure?
    ensures WrappedSend(self, req, env).result == ReturnedNull
    ensures ExceptionCount(WrappedSend(self, req, env).trace) == 1
    ensures OnException(env.transport(Prepare(req, env, Some(self.timeoutSeconds)).value).error)
              in WrappedSend(self, req, env).trace
    ensures OnAfterApiRequest !in WrappedSend(self, req, env).trace
  {
  }

  /** A `handleResponse` that yields null is not a failure: whatever the
      rethrow policy, `onException` never runs, `onAfterHandledApiRequest`
      sees null, and the call returns null. */
  lemma NullHandlingIsNotRouted(self: WrappedApi, req: ApiRequest, env: Environment)
    requires Prepare(req, env, Some(self.timeoutSeconds)).Success?
    requires env.transport(Prepare(req, env, Some(self.timeoutSeconds)).value).Success?
    requires HandleResponse(req, env.transport(Prepare(req, env, Some(self.timeoutSeconds)).value).value,
                            env.deserialize) == Success(None)
    ensures WrappedSend(self, req, env).result == ReturnedNull
    ensures ExceptionCount(WrappedSend(self, req, env).trace) == 0
    ensures WrappedSend(self, req, env).trace[3] == OnAfterHandledApiRequest(None)
  {
  }

  /** A non-positive timeout makes `WrappedApi.send` throw once the URL is
      built, before the URI check and before any hook, while
      `ApiRequest.send`, which sets no timeout, is unaffected by it. */
  lemma NonPositiveTimeoutThrowsBeforeHooks(self: WrappedApi, req: ApiRequest, env: Environment)
    requires self.timeoutSeconds <= 0
    ensures RequestUrl(req).Success? ==> WrappedSend(self, req, env) == Run([], Thrown(IllegalTimeout))
    ensures RequestUrl(req).Failure? ==> WrappedSend(self, req, env) == Run([], Thrown(NullPointer))
    ensures Prepare(req, env, None).Success? ==> |ApiSend(req, env).trace| == 2
  {
  }

  /** The new pipeline has no brace check: a placeholder nobody fills is
      sent to the transport verbatim. */
  lemma UnfilledPlaceholderIsSent(req: ApiRequest, env: Environment, id: string)
    requires req.endpoint == Some(Token(id)) && req.pathParameters == None && req.requestQueries == None
    requires req.requestMethod.Some?
    requires env.uri(BaseUrl(req) + Token(id)) == Accepted
    ensures ApiSend(req, env).trace[1].TransportCall?
    ensures ApiSend(req, env).trace[1].request.uri == BaseUrl(req) + Token(id)
  {
  }
}

=== FILE: template.dfy ===
/** Path-parameter substitution, shared by the new pipeline
    (`WrappedApi.computeEndpoint`, `ApiRequest.getComputedEndpoint`) and the
    legacy `Action.execute`: for each parameter in list order, every
    occurrence of `{id}` is replaced with the parameter's replacement.

    The second half of the module gives the substitution a meaning. A
    template is a sequence of brace-free literal pieces and `{id}` slots;
    substituting brace-free parameters fills each slot with the replacement
    of the FIRST parameter carrying its id, and leaves the slot alone when no
    parameter does. So the result is brace-free exactly when every slot is
    covered, which is what the legacy brace check tests.
 */
module PathTemplate {
  import opened Outcomes
  import opened Text
  import opened Values

  /** The substitution loop: `s = s.replace("{" + p.id + "}", p.replacement)`
      for each parameter `p`, in list order, each seeing the output of the
      ones before it. */
  function Substitute(s: string, ps: seq<PathParameter>): (r: string)
    ensures BraceFree(s) ==> r == s
    decreases |ps|
  {
    if |ps| == 0 then s
    else
      BraceFreeHasNoToken(s, ps[0].id, ps[0].replacement);
      Substitute(ReplaceAll(s, Token(ps[0].id), ps[0].replacement), ps[1..])
  }

  /** A text without braces holds no placeholder, so `replace` leaves it
      alone. */
  lemma BraceFreeHasNoToken(s: string, id: string, r: string)
    ensures BraceFree(s) ==> ReplaceAll(s, Token(id), r) == s
  {
    if BraceFree(s) {
      forall i | 0 <= i < |s| ensures !OccursAt(s, Token(id), i) {
        assert s[i] in s;
        if i + |Token(id)| <= |s| {
          assert s[i..i + |Token(id)|][0] == s[i];
        }
      }
      ReplaceAllAbsent(s, Token(id), r);
    }
  }

  /** Substituting two lists one after the other is substituting their
      concatenation: the parameters act strictly in sequence. */
  lemma {:induction false} SubstituteAppend(s: string, ps: seq<PathParameter>, qs: seq<PathParameter>)
    ensures Substitute(s, ps + qs) == Substitute(Substitute(s, ps), qs)
    decreases |ps|
  {
    if |ps| == 0 {
      assert ps + qs == qs;
    } else {
      assert (ps + qs)[0] == ps[0];
      assert (ps + qs)[1..] == ps[1..] + qs;
      SubstituteAppend(ReplaceAll(s, Token(ps[0].id), ps[0].replacement), ps[1..], qs);
    }
  }

  /** Parameters whose placeholder does not occur leave the text unchanged. */
  lemma {:induction false} SubstituteAbsent(s: string, ps: seq<PathParameter>)
    requires forall k, i :: 0 <= k < |ps| && 0 <= i < |s| ==> !OccursAt(s, Token(ps[k].id), i)
    ensures Substitute(s, ps) == s
    decreases |ps|
  {
    if |ps| > 0 {
      ReplaceAllAbsent(s, Token(ps[0].id), ps[0].replacement);
      SubstituteAbsent(s, ps[1..]);
    }
  }

  /** A piece of a path template. */
  datatype Segment = Lit(text: string) | Slot(id: string)

  function RenderSegment(g: Segment): string {
    match g
    case Lit(t) => t
    case Slot(id) => Token(id)
  }

  /** The text of a template. */
  function Render(segs: seq<Segment>): string
    decreases |segs|
  {
    if |segs| == 0 then "" else RenderSegment(segs[0]) + Render(segs[1..])
  }

  predicate SegmentBraceFree(g: Segment) {
    match g
    case Lit(t) => BraceFree(t)
    case Slot(id) => BraceFree(id)
  }

  /** Literal pieces and slot ids contain no braces. */
  ghost predicate WellFormed(segs: seq<Segment>) {
    forall i :: 0 <= i < |segs| ==> SegmentBraceFree(segs[i])
  }

  /** Ids and replacements contain no braces. */
  ghost predicate BraceFreeParameters(ps: seq<PathParameter>) {
    forall k :: 0 <= k < |ps| ==> BraceFree(ps[k].id) && BraceFree(ps[k].replacement)
  }

  /** The replacement of the first parameter with the given id. */
  function Lookup(ps: seq<PathParameter>, id: string): Option<string>
    decreases |ps|
  {
    if |ps| == 0 then None
    else if ps[0].id == id then Some(ps[0].replacement)
    else Lookup(ps[1..], id)
  }

  function ResolveSegment(g: Segment, ps: seq<PathParameter>): Segment {
    match g
    case Lit(t) => g
    case Slot(id) =>
      match Lookup(ps, id)
      case Some(r) => Lit(r)
      case None => g
  }

  /** The template with every covered slot filled in. */
  function Resolve(segs: seq<Segment>, ps: seq<PathParameter>): (r: seq<Segment>)
    ensures |r| == |segs|
  {
    seq(|segs|, i requires 0 <= i < |segs| => ResolveSegment(segs[i], ps))
  }

  /** Every slot of the template has a parameter with its id. */
  ghost predicate Covered(segs: seq<Segment>, ps: seq<PathParameter>) {
    forall i :: 0 <= i < |segs| && segs[i].Slot? ==> Lookup(ps, segs[i].id).Some?
  }

  /** No placeholder starts inside a brace-free text. */
  lemma NoOccurrenceInLiteral(l: string, rest: string, t: string)
    requires BraceFree(l) && |t| > 0 && t[0] == '{'
    ensures forall i :: 0 <= i < |l| ==> !OccursAt(l + rest, t, i)
  {
    forall i | 0 <= i < |l|
      ensures !OccursAt(l + rest, t, i)
    {
      if i + |t| <= |l + rest| {
        assert (l + rest)[i..i + |t|][0] == l[i];
        assert l[i] in l;
      }
    }
  }

  /** The placeholder of one id never starts inside the placeholder of a
      different id, when neither id contains a brace. */
  lemma DistinctTokensDisjoint(x: string, y: string, rest: string)
    requires BraceFree(x) && BraceFree(y) && x != y
    ensures forall i :: 0 <= i < |Token(y)| ==> !OccursAt(Token(y) + rest, Token(x), i)
  {
    var s := Token(y) + rest;
    var t := Token(x);
    forall i | 0 <= i < |Token(y)|
      ensures !OccursAt(s, t, i)
    {
      if i + |t| <= |s| {
        var j := MismatchAt(x, y, rest, i);
        assert s[i..i + |t|][j] == s[i + j];
      }
    }
  }

  /** An offset at which the placeholder of `x` and the text starting at
      position `i` of the placeholder of `y` differ. */
  lemma MismatchAt(x: string, y: string, rest: string, i: nat) returns (j: nat)
    requires BraceFree(x) && BraceFree(y) && x != y
    requires i < |Token(y)| && i + |Token(x)| <= |Token(y) + rest|
    ensures j < |Token(x)| && (Token(y) + rest)[i + j] != Token(x)[j]
  {
    var s := Token(y) + rest;
    var t := Token(x);
    if i > 0 {
      j := 0;
      if i <= |y| {
        assert s[i] == y[i - 1];
        assert y[i - 1] in y;
      } else {
        assert s[i] == '}';
      }
    } else if |x| < |y| {
      j := |x| + 1;
      assert s[j] == y[|x|];
      assert y[|x|] in y;
    } else if |y| < |x| {
      j := |y| + 1;
      assert s[j] == '}';
      assert t[j] == x[|y|];
      assert x[|y|] in x;
    } else {
      var k :| 0 <= k < |x| && x[k] != y[k];
      j := k + 1;
      assert s[j] == y[k];
      assert t[j] == x[k];
    }
  }

  /** Replacing one brace-free placeholder in a rendered template fills
      exactly the slots with that id. */
  lemma {:induction false} ReplaceRendered(segs: seq<Segment>, p: PathParameter)
    requires WellFormed(segs)
    requires BraceFree(p.id) && BraceFree(p.replacement)
    ensures ReplaceAll(Render(segs), Token(p.id), p.replacement) == Render(Resolve(segs, [p]))
    decreases |segs|
  {
    var t := Token(p.id);
    if |segs| == 0 {
      ReplaceAllShort("", t, p.replacement);
    } else {
      var g := segs[0];
      var rest := Render(segs[1..]);
      assert Resolve(segs, [p]) == [ResolveSegment(g, [p])] + Resolve(segs[1..], [p]);
      ReplaceRendered(segs[1..], p);
      match g
      case Lit(l) =>
        NoOccurrenceInLiteral(l, rest, t);
        ReplaceAllSkips(l, rest, t, p.replacement);
      case Slot(y) =>
        if y == p.id {
          assert (t + rest)[..|t|] == t;
          assert (t + rest)[|t|..] == rest;
        } else {
          assert Lookup([p], y) == None by {
            assert [p][1..] == [];
          }
          DistinctTokensDisjoint(p.id, y, rest);
          ReplaceAllSkips(Token(y), rest, t, p.replacement);
        }
    }
  }

  /** Resolving with one parameter and then with the rest is resolving with
      the whole list: an earlier parameter claims a slot first. */
  lemma ResolveCompose(segs: seq<Segment>, p: PathParameter, ps: seq<PathParameter>)
    ensures Resolve(Resolve(segs, [p]), ps) == Resolve(segs, [p] + ps)
  {
    forall i | 0 <= i < |segs|
      ensures ResolveSegment(ResolveSegment(segs[i], [p]), ps) == ResolveSegment(segs[i], [p] + ps)
    {
      assert ([p] + ps)[1..] == ps;
      assert [p][1..] == [];
      if segs[i].Slot? && segs[i].id != p.id {
        assert Lookup([p], segs[i].id) == None;
        assert Lookup([p] + ps, segs[i].id) == Lookup(ps, segs[i].id);
      }
    }
  }

  lemma ResolveKeepsWellFormed(segs: seq<Segment>, ps: seq<PathParameter>)
    requires WellFormed(segs) && BraceFreeParameters(ps)
    ensures WellFormed(Resolve(segs, ps))
  {
    forall i | 0 <= i < |segs|
      ensures SegmentBraceFree(ResolveSegment(segs[i], ps))
    {
      if segs[i].Slot? {
        LookupBraceFree(ps, segs[i].id);
      }
    }
  }

  lemma {:induction false} LookupBraceFree(ps: seq<PathParameter>, id: string)
    requires BraceFreeParameters(ps)
    ensures Lookup(ps, id).Some? ==> BraceFree(Lookup(ps, id).value)
    decreases |ps|
  {
    if |ps| > 0 && ps[0].id != id {
      LookupBraceFree(ps[1..], id);
    }
  }

  /** Substituting a list of parameters into a rendered template is
      rendering the resolved template. */
  lemma {:induction false} SubstituteRendered(segs: seq<Segment>, ps: seq<PathParameter>)
    requires WellFormed(segs) && BraceFreeParameters(ps)
    ensures Substitute(Render(segs), ps) == Render(Resolve(segs, ps))
    decreases |ps|
  {
    if |ps| == 0 {
      assert Resolve(segs, ps) == segs;
    } else {
      var p, rest := ps[0], ps[1..];
      assert BraceFree(p.id) && BraceFree(p.replacement);
      assert BraceFreeParameters([p]);
      assert BraceFreeParameters(rest) by {
        forall k | 0 <= k < |rest|
          ensures BraceFree(rest[k].id) && BraceFree(rest[k].replacement)
        {
          assert rest[k] == ps[k + 1];
        }
      }
      calc {
        Substitute(Render(segs), ps);
        Substitute(ReplaceAll(Render(segs), Token(p.id), p.replacement), rest);
        { ReplaceRendered(segs, p); }
        Substitute(Render(Resolve(segs, [p])), rest);
        { ResolveKeepsWellFormed(segs, [p]); SubstituteRendered(Resolve(segs, [p]), rest); }
        Render(Resolve(Resolve(segs, [p]), rest));
        { ResolveCompose(segs, p, rest); assert [p] + rest == ps; }
        Render(Resolve(segs, ps));
      }
    }
  }

  /** A well-formed template renders brace-free iff it has no slot left. */
  lemma {:induction false} RenderBraceFree(segs: seq<Segment>)
    requires WellFormed(segs)
    ensures BraceFree(Render(segs)) <==> forall i :: 0 <= i < |segs| ==> !segs[i].Slot?
    decreases |segs|
  {
    if |segs| > 0 {
      RenderBraceFree(segs[1..]);
      var head := RenderSegment(segs[0]);
      assert Render(segs) == head + Render(segs[1..]);
      if segs[0].Slot? {
        assert head[0] == '{';
        assert '{' in Render(segs);
      } else {
        assert BraceFree(head);
      }
      if !BraceFree(Render(segs[1..])) {
        var j :| 0 <= j < |segs[1..]| && segs[1..][j].Slot?;
        assert segs[j + 1].Slot?;
      }
      if exists j :: 1 <= j < |segs| && segs[j].Slot? {
        var j :| 1 <= j < |segs| && segs[j].Slot?;
        assert segs[1..][j - 1].Slot?;
      }
    }
  }

  /** THE brace property: substituting brace-free parameters into a
      well-formed template leaves no `{` or `}` exactly when every slot has
      a parameter with its id; otherwise a brace survives. */
  lemma SubstitutedBraceFreeIffCovered(segs: seq<Segment>, ps: seq<PathParameter>)
    requires WellFormed(segs) && BraceFreeParameters(ps)
    ensures BraceFree(Substitute(Render(segs), ps)) <==> Covered(segs, ps)
  {
    SubstituteRendered(segs, ps);
    ResolveKeepsWellFormed(segs, ps);
    RenderBraceFree(Resolve(segs, ps));
    var r := Resolve(segs, ps);
    if Covered(segs, ps) {
      forall i | 0 <= i < |r|
        ensures !r[i].Slot?
      {
      }
    } else {
      var i :| 0 <= i < |segs| && segs[i].Slot? && Lookup(ps, segs[i].id).None?;
      assert r[i].Slot?;
    }
  }

  /** Each slot is filled by the first parameter with its id: with two
      parameters for the same id, the earlier one wins. */
  lemma FirstParameterWins(id: string, a: string, b: string)
    requires BraceFree(id) && BraceFree(a) && BraceFree(b)
    ensures Substitute(Token(id), [PathParameter(id, a), PathParameter(id, b)]) == a
  {
    var segs := [Slot(id)];
    var ps := [PathParameter(id, a), PathParameter(id, b)];
    assert Render(segs) == Token(id);
    assert WellFormed(segs);
    SubstituteRendered(segs, ps);
    assert Resolve(segs, ps) == [Lit(a)];
  }
}

=== FILE: text.dfy ===
/** Java string operations the request code relies on, over `seq<char>`.

    `ReplaceAll` is `String.replace(CharSequence, CharSequence)`: occurrences
    of the target are found left to right, a match is skipped over as a whole
    (matches never overlap), and the replacement text is never rescanned.
 */
module Text {

  /** `s.startsWith(prefix)`. */
  predicate StartsWith(s: string, prefix: string) {
    |prefix| <= |s| && s[..|prefix|] == prefix
  }

  /** `s.endsWith(suffix)`. */
  predicate EndsWith(s: string, suffix: string) {
    |suffix| <= |s| && s[|s| - |suffix|..] == suffix
  }

  /** Neither `{` nor `}` occurs in `s`. */
  predicate BraceFree(s: string) {
    '{' !in s && '}' !in s
  }

  /** `t` occurs in `s` starting at index `i`. */
  ghost predicate OccursAt(s: string, t: string, i: int) {
    0 <= i && i + |t| <= |s| && s[i..i + |t|] == t
  }

  /** `s.replace(target, replacement)`. An empty target inserts the
      replacement before every character and at the end, as Java does. */
  function ReplaceAll(s: string, target: string, replacement: string): (r: string)
    ensures |target| > 0 && |replacement| == |target| ==> |r| == |s|
    ensures |target| > 0 && |replacement| < |target| ==> |r| <= |s|
    decreases |s|
  {
    if |target| == 0 then
      if |s| == 0 then replacement
      else replacement + [s[0]] + ReplaceAll(s[1..], target, replacement)
    else if |s| < |target| then s
    else if s[..|target|] == target then
      replacement + ReplaceAll(s[|target|..], target, replacement)
    else [s[0]] + ReplaceAll(s[1..], target, replacement)
  }

  /** A position where the target does not start is copied unchanged and
      the scan moves on by one character. */
  lemma ReplaceAllStep(s: string, t: string, r: string)
    requires |t| > 0 && |s| > 0
    requires !OccursAt(s, t, 0)
    ensures ReplaceAll(s, t, r) == [s[0]] + ReplaceAll(s[1..], t, r)
  {
    if |s| < |t| {
      ReplaceAllShort(s[1..], t, r);
      assert [s[0]] + s[1..] == s;
    } else {
      assert s[..|t|] == s[0..0 + |t|];
    }
  }

  /** Shifting a string by one character shifts its occurrences. */
  lemma OccursAtShift(c: char, s: string, t: string, i: nat)
    ensures OccursAt([c] + s, t, i + 1) <==> OccursAt(s, t, i)
  {
    if i + |t| <= |s| {
      assert ([c] + s)[i + 1..i + 1 + |t|] == s[i..i + |t|];
    }
  }

  /** A prefix in which no occurrence of the target starts is copied
      unchanged: the scan only starts rewriting at the first match. */
  lemma {:induction false} ReplaceAllSkips(p: string, q: string, t: string, r: string)
    requires |t| > 0
    requires forall i :: 0 <= i < |p| ==> !OccursAt(p + q, t, i)
    ensures ReplaceAll(p + q, t, r) == p + ReplaceAll(q, t, r)
    decreases |p|
  {
    if |p| > 0 {
      var s := p + q;
      assert s == [p[0]] + (p[1..] + q);
      forall i | 0 <= i < |p[1..]|
        ensures !OccursAt(p[1..] + q, t, i)
      {
        OccursAtShift(p[0], p[1..] + q, t, i);
        assert !OccursAt(s, t, i + 1);
      }
      ReplaceAllSkips(p[1..], q, t, r);
      ReplaceAllStep(s, t, r);
      assert s[1..] == p[1..] + q;
      calc {
        ReplaceAll(s, t, r);
        [s[0]] + ReplaceAll(s[1..], t, r);
        [p[0]] + (p[1..] + ReplaceAll(q, t, r));
        { assert [p[0]] + p[1..] == p; }
        p + ReplaceAll(q, t, r);
      }
    } else {
      assert p + q == q;
    }
  }

  /** A string shorter than the target has nothing to replace. */
  lemma ReplaceAllShort(s: string, t: string, r: string)
    requires 0 < |t| && |s| < |t|
    ensures ReplaceAll(s, t, r) == s
  {
  }

  /** Without any occurrence of the target the string is left unchanged. */
  lemma ReplaceAllAbsent(s: string, t: string, r: string)
    requires |t| > 0
    requires forall i :: 0 <= i < |s| ==> !OccursAt(s, t, i)
    ensures ReplaceAll(s, t, r) == s
  {
    assert s + [] == s;
    ReplaceAllSkips(s, [], t, r);
  }

  /** The first occurrence is replaced, and scanning resumes after it. */
  lemma ReplaceAllFirst(s: string, t: string, r: string, k: nat)
    requires |t| > 0
    requires OccursAt(s, t, k)
    requires forall i :: 0 <= i < k ==> !OccursAt(s, t, i)
    ensures ReplaceAll(s, t, r) == s[..k] + r + ReplaceAll(s[k + |t|..], t, r)
  {
    var p, q := s[..k], s[k..];
    assert s == p + q;
    ReplaceAllSkips(p, q, t, r);
    assert StartsWith(q, t) by {
      assert q[..|t|] == s[k..k + |t|];
    }
    ReplaceAllAt(q, t, r);
    assert q[|t|..] == s[k + |t|..];
  }

  /** A text that starts with the target: the replacement, then the rest. */
  lemma ReplaceAllAt(q: string, t: string, r: string)
    requires |t| > 0 && StartsWith(q, t)
    ensures ReplaceAll(q, t, r) == r + ReplaceAll(q[|t|..], t, r)
  {
  }

  /** Replacing a target by itself changes nothing. */
  lemma {:induction false} ReplaceAllSelf(s: string, t: string)
    ensures ReplaceAll(s, t, t) == s
    decreases |s|
  {
    if |t| == 0 {
      if |s| > 0 {
        ReplaceAllSelf(s[1..], t);
        assert [s[0]] + s[1..] == s;
      }
    } else if |s| < |t| {
    } else if s[..|t|] == t {
      ReplaceAllSelf(s[|t|..], t);
      assert s[..|t|] + s[|t|..] == s;
    } else {
      ReplaceAllSelf(s[1..], t);
      assert [s[0]] + s[1..] == s;
    }
  }

  /** With a brace-free replacement, replacing never introduces a brace:
      every brace of the result was already in the input. */
  lemma {:induction false} ReplaceAllKeepsBraceFree(s: string, t: string, r: string)
    requires BraceFree(s) && BraceFree(r)
    ensures BraceFree(ReplaceAll(s, t, r))
    decreases |s|
  {
    if |t| == 0 {
      if |s| > 0 {
        ReplaceAllKeepsBraceFree(s[1..], t, r);
        assert s[0] in s;
      }
    } else if |s| < |t| {
    } else if s[..|t|] == t {
      ReplaceAllKeepsBraceFree(s[|t|..], t, r);
    } else {
      ReplaceAllKeepsBraceFree(s[1..], t, r);
      assert s[0] in s;
    }
  }
}

=== FILE: values.dfy ===
/** The small value types a request is made of: path parameters, query
    parameters, headers, request methods and the opaque body strategies. */
module Values {

  /** The placeholder text `{id}` that a path parameter replaces. */
  function Token(id: string): (r: string)
    ensures |r| == |id| + 2
    ensures r[0] == '{' && r[|r| - 1] == '}'
    ensures r[1..|r| - 1] == id
  {
    "{" + id + "}"
  }

  /** Distinct ids have distinct placeholders. */
  lemma TokenInjective(a: string, b: string)
    requires Token(a) == Token(b)
    ensures a == b
  {
    assert a == Token(a)[1..|Token(a)| - 1];
  }

  /** A path parameter: every `{id}` in the template becomes `replacement`.
      The new pipeline reads the id through `getId`, the legacy one through
      `getParameter` and `toString`; both name the same first field. */
  datatype PathParameter = PathParameter(id: string, replacement: string) {

    /** `PathParameter.toString()`: the placeholder this parameter fills. */
    function ToString(): (r: string)
      ensures |r| == |id| + 2
      ensures r[0] == '{' && r[|r| - 1] == '}'
      ensures r[1..|r| - 1] == id
    {
      Token(id)
    }
  }

  /** `PathParameter.of(id, replacement)`. */
  function PathParameterOf(id: string, replacement: string): (r: PathParameter)
    ensures r.id == id && r.replacement == replacement
  {
    PathParameter(id, replacement)
  }

  /** A query parameter, rendered as `name=value` without any encoding. */
  datatype RequestQuery = RequestQuery(name: string, value: string)

  /** `RequestQuery.of(name, value)`. */
  function QueryOf(name: string, value: string): (r: RequestQuery)
    ensures r.name == name && r.value == value
  {
    RequestQuery(name, value)
  }

  /** A request header; several headers with the same key may coexist. */
  datatype RequestHeader = RequestHeader(key: string, value: string)

  const ContentTypeKey: string := "Content-Type"

  /** `RequestHeader.of(key, value)`. */
  function HeaderOf(key: string, value: string): (r: RequestHeader)
    ensures r.key == key && r.value == value
  {
    RequestHeader(key, value)
  }

  /** `RequestHeader.ofContentType(value)`. */
  function ContentType(value: string): (r: RequestHeader)
    ensures r.key == "Content-Type" && r.value == value
  {
    RequestHeader(ContentTypeKey, value)
  }

  /** An HTTP verb. The predefined verbs are constants; any other name can
      be wrapped with `MethodOf`. */
  datatype RequestMethod = RequestMethod(name: string)

  const GET: RequestMethod := RequestMethod("GET")
  const POST: RequestMethod := RequestMethod("POST")
  const PUT: RequestMethod := RequestMethod("PUT")
  const DELETE: RequestMethod := RequestMethod("DELETE")

  /** `RequestMethod.of(name)`: custom verbs are kept verbatim. */
  function MethodOf(name: string): (r: RequestMethod)
    ensures r.name == name
  {
    RequestMethod(name)
  }

  /** The predefined verbs carry their upper-case names, and no two share one. */
  lemma PredefinedMethods()
    ensures GET.name == "GET" && POST.name == "POST"
    ensures PUT.name == "PUT" && DELETE.name == "DELETE"
    ensures |{GET.name, POST.name, PUT.name, DELETE.name}| == 4
  {
  }

  /** The header of the legacy `SimpleAPI` defaults (`Header`). */
  datatype Header = Header(name: string, value: string)

  /** The body a request sends: `BodyPublishers.noBody()` or some other
      publisher, known only by the text it produces. */
  datatype BodyPublisher = NoBody | Publishes(payload: string)

  /** How the transport reads a response body: `BodyHandlers.ofString()` or
      some other handler. */
  datatype BodyHandler = OfString | OtherHandler(kind: string)

  /** A response body as the transport hands it over: a string, some other
      object, or null (a handler such as `BodyHandlers.discarding()`). */
  datatype Body = Text(text: string) | Opaque(kind: string) | NullBody
}
